=== FILE: README.md ===
# PanelPachi AI services, modelled in Dafny

This project models the Python back-end of PanelPachi's image services. It does not model the machine-learning models themselves. It models the small deterministic rules wrapped around them:

- **OCR endpoint** (`Api`): how `process_ocr` defaults, truncates and clamps each selection rectangle, when it rejects a selection as empty, and how it fills in placeholder and error texts.
- **Translation endpoint** (`Api`): how `translate_text` zips items with DeepL replies, with all-or-nothing failure.
- **Inpaint endpoint** (`Api`): how `inpaint_image` thresholds the mask and shapes its response.
- **Inpainting helpers** (`Helper`): the shape arithmetic and error order of the helpers, such as `pad_img_to_modulo`, `norm_img`, `prepare_image_mask` and `ensure_directory`.
- **The LaMa wrapper** (`LaMa`): the shape pipeline of `AnimeLaMa.forward`: pad to 8, binarise, crop back.
- **The manga OCR wrapper** (`MangaOcr`): the lazy-loading state machine, input validation, result filtering and the process-wide singleton.
- **The single-image script** (`InpaintApi`, from `inpaint_api.py`): device fallback, output-suffix defaulting, exit status and directory creation.
- **The batch tool** (`InpaintTool`, from `inpaint.py`): image discovery, the first-match mask lookup, the per-image outcome, the success counter and mode dispatch.

Two supporting modules hold shared definitions:

- `Paths` models the parts of `os.path` and `pathlib.PurePosixPath` the services call, following CPython 3.12.
- `Common` holds `Option`/`Result` and the `str` operations used: `strip`, ASCII `lower`, and decimal rendering.

Everything outside the process is a parameter:

- **File system.** A record `Fs` of file and directory sets, plus a map from decodable image paths to their height and width.
- **Image directory listing.** A sequence of entry names.
- **OCR engine on a crop.** A function `Rect -> OcrReply`.
- **Placeholder choice.** `random.choice` is a function `pick: nat -> nat`; selection `i` gets `Placeholders[pick(i) % 7]`.
- **DeepL replies.** One reply per item.
- **The inpainting subprocess.** Its exit status and output bytes.
- **Model loading and inference.** Whether loading succeeds, and whether the network or the image writer raises.

Images are represented by their numpy shapes. Only masks carry pixel values, because thresholding is a rule about pixels.

A Python exception that escapes the modelled code is an `Err` or `None` result. The result is `Err(500)` where FastAPI turns the exception into an HTTP 500. For the scripts, it is exit status 1.

## Model

| member | source | states |
|---|---|---|
| Api.TruncToInt | ai-services/api/app.py:358-361 | `int()` on a number truncates toward zero: the result is the integer between 0 and `x` that is less than one away from `x`. |
| Api.TruncToIntUnique | ai-services/api/app.py:358-361 | Those bounds determine the result: any integer within them is the truncation. |
| Api.FieldToInt | ai-services/api/app.py:358-361 | A missing key gives the default. A number gives its truncation toward zero. The conversion fails exactly for a value `int()` rejects. |
| Api.Requested | ai-services/api/app.py:357-361 | A selection yields a rectangle exactly when none of its four fields is rejected by `int()`. A missing field defaults to 0, 0, 100 and 100 respectively. A present field is its value truncated toward zero. |
| Api.Clamp | ai-services/api/app.py:365-376 | After clamping, left and top are non-negative and the rectangle ends at or before the right and bottom edges. A negative origin moves to 0, and any other origin stays. Width and height never grow, and each is cut only to end exactly at the image's edge. |
| Api.ClampKeepsInside | ai-services/api/app.py:365-376 | A rectangle already inside the image comes out of the clamp unchanged. |
| Api.ClampIdempotent | ai-services/api/app.py:365-376 | Clamping a clamped rectangle changes nothing. |
| Api.NonEmptyClampIsInside | ai-services/api/app.py:375-386 | A clamped rectangle with positive width and height lies inside the image, so the crop has exactly its size. A left beyond the image width, or a top beyond its height, always gives an empty rectangle. |
| Api.ReplyText | ai-services/api/app.py:393-415 | The stored text is never blank. It is the engine's own text when that is non-blank, one of the seven placeholders when the engine found nothing or only whitespace, and `"Error: "` followed by the message when processing the crop raised. |
| Api.SelectionItem | ai-services/api/app.py:356-415 | A selection contributes an item exactly when all its fields convert. |
| Api.SelectionItemSpec | ai-services/api/app.py:357-415 | Each item has its selection's id (`"unknown"` when absent) and a non-blank text. An empty clamped rectangle gives `"Error: Invalid selection size"`. Otherwise the engine is consulted on a rectangle inside the image. |
| Api.ProcessOcr | ai-services/api/app.py:336-422 | The request fails with 500 exactly when the selections field does not parse to a value with a length whose iteration yields only records, the image does not decode, or some field is rejected by `int()`. Otherwise there is exactly one item per selection, in input order, each with that selection's id and a non-blank text. |
| Api.TranslatedText | ai-services/api/app.py:451-452 | A body without `translations`, or a first entry without `text`, gives `"Translation error"`. Non-object bodies and an empty list raise. Otherwise the result is the first entry's text. |
| Api.TranslateText | ai-services/api/app.py:430-463 | The batch fails with 500 exactly when the API key is missing or empty, or some reply is unreachable, not status 200, or unusable. Otherwise there is one response per item, in order, with `id` and `original` copied and the translated text taken from that item's reply. |
| Api.ImageFormat | ai-services/api/app.py:241 | The format is `jpeg` exactly when the lower-cased suffix of the output path is `.jpg` or `.jpeg`, and `png` otherwise. |
| Api.TmpOutputIsPng | ai-services/api/app.py:182 | The temporary output path `/tmp/panelpachi/tmp_output_<pid>.png` has the suffix `.png` for every process id, so the data-URL format it yields is `png`. |
| Api.InpaintImage | ai-services/api/app.py:124-255 | The response succeeds exactly when both uploads decode, the script exits 0 and the output exists. A failure has neither image nor format and a message that starts with `"Inpainting failed: "`. A success carries the output bytes and the format `png`. The mask handed to the script has the uploaded mask's dimensions and only the values 0 and 255. |
| Masks.Threshold | ai-services/api/app.py:170 | `THRESH_BINARY` keeps the grid's dimensions. A pixel above the threshold becomes `maxval` and every other pixel becomes 0. |
| Masks.BinaryMaskSpec | ai-services/api/app.py:170 | The endpoint's mask is an 8-bit binary grid. A pixel is 255 exactly when the uploaded pixel exceeded 127. |
| Masks.BinaryMaskIdempotent | ai-services/api/app.py:170 | Re-thresholding the thresholded mask changes nothing. |
| Masks.Binarize | ai-services/models/inpainting/model.py:42 | `(mask > 0) * 1` keeps the dimensions and gives 1 exactly at the positive pixels and 0 elsewhere. |
| Masks.UploadedMaskReachesModel | ai-services/api/app.py:165-170 | For a single-channel upload, or an RGB one taken as its channel mean, a pixel is marked for inpainting after the endpoint's threshold and the model's `> 0` exactly when the uploaded pixel exceeded 127. |
| Helper.NormImg | ai-services/models/inpainting/helper.py:6-12 | (H, W) becomes (1, H, W) and (H, W, C) becomes (C, H, W). Any other rank fails. |
| Helper.PermuteUndoesNormImg | ai-services/models/inpainting/helper.py:6-12 | The `permute(1, 2, 0)` that `forward` applies to the output (model.py line 53) gives back an (H, W, C) shape, and (H, W) with one added channel. |
| Helper.PadAmountSpec | ai-services/models/inpainting/helper.py:59-60 | For a positive modulus, the padding is in [0, m), makes the dimension divisible by m, and is zero exactly when the dimension already is. No smaller padding makes it divisible. |
| Helper.PadToModulo | ai-services/models/inpainting/helper.py:52-67 | Shapes that are not 2-D or 3-D fail, and so does a zero modulus. Otherwise only height and width grow. The channel axis is kept, except that OpenCV returns a one-channel (H, W, 1) array as (H, W). |
| Helper.PadToModuloRank | ai-services/models/inpainting/helper.py:52-67 | The rank is kept exactly when the shape is (H, W) or has more than one channel. |
| Helper.PadToModuloDivisible | ai-services/models/inpainting/helper.py:52-67 | With a positive modulus, the padded height and width are multiples of it. Each grew by less than the modulus, and stayed unchanged exactly when already divisible. |
| Helper.PadToModuloIdempotent | ai-services/models/inpainting/helper.py:52-67 | Padding a padded shape again changes nothing. |
| Helper.PrepareImageMask | ai-services/models/inpainting/helper.py:26-50 | A missing path gives `FileNotFoundError` and an undecodable one gives `ValueError`. The image is checked before the mask. On success the image is (H, W, 3) and the mask is (H, W) with the image's H and W, resized exactly when the sizes differed. |
| Helper.MakeDirs | ai-services/models/inpainting/helper.py:72 | `os.makedirs` creates the path. When the parent named by `os.path.split` is missing, it is created first, recursively. Every directory added is the path or one of its prefixes, and files are untouched. If every directory had its parent before, every directory has its parent after. |
| Helper.EnsureDirectory | ai-services/models/inpainting/helper.py:69-72 | An existing path is left alone. A missing non-empty path is created together with its missing parents: if every directory had its parent before, every directory has its parent after. Nothing but the path and its prefixes is added. A missing empty path raises. |
| Helper.GrandparentCreated | ai-services/models/inpainting/helper.py:69-72 | Ensuring `x/y/z` leaves `x`, `x/y` and `x/y/z` all as directories. |
| Helper.NestedDirectoryCreated | ai-services/models/inpainting/helper.py:69-72 | Ensuring `x/y` when neither exists creates exactly `x` and `x/y`. |
| LaMa.Forward | ai-services/models/inpainting/model.py:21-60 | The tensors fed to the network have height and width divisible by 8, padded by less than 8, with the mask tensor matching the image tensor. The output is cropped back to exactly the input's (H, W, 3). |
| LaMa.Inpaint | ai-services/models/inpainting/model.py:62-64 | `inpaint` has the input image's shape, as `forward` does. |
| LaMa.PreparedFitsForward | ai-services/models/inpainting/helper.py:26-50 | A pair from `prepare_image_mask` is an RGB image and a grayscale mask of equal height and width. So `forward`'s own resize never fires, and inpainting returns the image's shape. |
| MangaOcr.Init | ai-services/models/ocr/ocr.py:18-29 | A new instance has nothing loaded and no recorded error. |
| MangaOcr.LoadModel | ai-services/models/ocr/ocr.py:31-72 | `_load_model` as written: a no-op when loaded or when the recorded error is truthy. Otherwise it loads or records `str(e)` and raises. The prefixed messages match the stage that failed. |
| MangaOcr.FailureMessage | ai-services/models/ocr/ocr.py:45-71 | A `from_pretrained` failure's message starts with `"Failed to load "` and ends with the underlying message. A failed move to the device keeps its own message. |
| MangaOcr.FailureMessageInjective | ai-services/models/ocr/ocr.py:45-61 | Two `from_pretrained` failures with the same message failed in the same component with the same underlying message. |
| MangaOcr.SilentFailureIsRetried | ai-services/models/ocr/ocr.py:36-37 | A failure whose message is empty is retried. After a successful retry, the instance is loaded and holds a recorded error. |
| MangaOcr.LoadModelOnce | ai-services/models/ocr/ocr.py:31-72 | With any recorded error, empty or not, later attempts are no-ops. A load that raises leaves an error recorded, and loaded and error are never both set. |
| MangaOcr.OpenInput | ai-services/models/ocr/ocr.py:132-200 | There is an image exactly when the input type is supported, a path exists, and opening and converting to RGB do not raise. Then it is the converted image. |
| MangaOcr.ValidateImage | ai-services/models/ocr/ocr.py:74-108 | An image is valid exactly when it is present, at least 10 pixels on each side, and not mostly white. `None` and small images are rejected with their own reasons. |
| MangaOcr.RecognisedText | ai-services/models/ocr/ocr.py:169-197 | The result is text exactly when every stage succeeds and the decoded text is not blank, and then it is that text. |
| MangaOcr.CallAsWritten | ai-services/models/ocr/ocr.py:110-200 | `__call__` as written, with `_load_model`'s guard and the truthiness test at line 128. A truthy recorded error returns `None` without touching the state. From an unloaded state without a truthy error, the model is loaded on first use exactly when loading succeeds, and a failed load records its message and returns `None`. The model is invoked exactly when it is loaded, the error is not truthy and the image is valid. Returned text is non-blank. |
| MangaOcr.EmptyErrorDivergence | ai-services/models/ocr/ocr.py:119-130 | After a load that failed with an empty message, a call on a valid PIL image returns the recognised text as written, but `None` with the intended guard. |
| MangaOcr.Call | ai-services/models/ocr/ocr.py:110-200 | `__call__` with the corrected guard of `LoadModelOnce`, not the code's own (see Findings). After any load error the call returns `None` without touching the state. From a fresh state, the model is loaded on first use exactly when loading succeeds, and a failed load records its message and returns `None`. The model is invoked exactly when it is loaded, without error, on a valid image. Returned text is non-blank, and the load invariant is preserved. |
| MangaOcr.FailedLoadIsFinal | ai-services/models/ocr/ocr.py:119-130 | Once a load error is recorded, no later call changes the instance or returns text. |
| MangaOcr.RunCallsKeepsInvariant | ai-services/models/ocr/ocr.py:110-200 | Over any sequence of calls, loaded and error are never both set, and every returned text is non-blank. |
| MangaOcr.GetOcrInstance | ai-services/models/ocr/ocr.py:205-210 | The registry holds the returned instance. An existing one is returned as is; otherwise a fresh instance for the given name is created. |
| MangaOcr.FirstModelNameWins | ai-services/models/ocr/ocr.py:205-210 | A second request, whatever name it passes, gets the instance created by the first call, with the first call's model name. |
| InpaintApi.ResolveDevice | ai-services/models/inpainting/inpaint_api.py:30-32 | The device changes exactly when CUDA is requested but unavailable, and then it becomes `cpu`. `cuda` is used only when available. |
| InpaintApi.ResolveDeviceIdempotent | ai-services/models/inpainting/inpaint_api.py:30-32 | Resolving a resolved device changes nothing. |
| InpaintApi.LowerOrDefault | ai-services/models/inpainting/inpaint_api.py:42-49 | A reported suffix becomes its lower-cased form, which is still a proper suffix of the same length. An empty one is replaced by `.png`. |
| InpaintApi.LowerOrDefaultIdempotent | ai-services/models/inpainting/inpaint_api.py:42-49 | Defaulting an already defaulted suffix changes nothing. |
| InpaintApi.DefaultedSuffix | ai-services/models/inpainting/inpaint_api.py:42-49 | The defaulted suffix is the input image's suffix lower-cased, or `.png` when the image has none. It is always one `with_suffix` accepts. |
| InpaintApi.OutputPath | ai-services/models/inpainting/inpaint_api.py:46-51 | A path with a suffix is kept. Otherwise it gets the defaulted suffix: the input's suffix lower-cased, or `.png` when the input has none. It fails exactly when the path has neither suffix nor name. The result always has a suffix. A suffixless path keeps its parent components, and its name gains the defaulted suffix. |
| InpaintApi.OutputPathIdempotent | ai-services/models/inpainting/inpaint_api.py:46-51 | Defaulting the suffix of a defaulted output path changes nothing. |
| InpaintApi.ImWrite | ai-services/models/inpainting/inpaint_api.py:67 | A write adds the file with the result's size. A silent failure changes nothing, and raising is failure. |
| InpaintApi.RunModel | ai-services/models/inpainting/inpaint_api.py:58 | Inference either raises or gives a result with the input image's height and width. |
| InpaintApi.EnsureOutputDir | ai-services/models/inpainting/inpaint_api.py:62-64 | Nothing changes when the output's directory part is empty or exists. Otherwise that directory exists afterwards, and every directory added is it or one of its prefixes. |
| InpaintApi.RunScript | ai-services/models/inpainting/inpaint_api.py:26-81 | The exit status is 0 or 1, and it is 0 exactly when the model loads and every step in the `try` block succeeds. Then the written output has the defaulted path and the input's size, and the directories are those the output step leaves. Status 1 leaves files untouched. |
| InpaintApi.OutputDirCreated | ai-services/models/inpainting/inpaint_api.py:62-64 | A successful run creates no directory for an output path without a slash. For one with a slash whose directory part is missing, it creates that directory and otherwise only its prefixes. |
| Paths.BasenameOfJoin | ai-services/models/inpainting/inpaint.py:25-26 | Joining a slash-free file name onto any directory keeps it as the base name. |
| Paths.SplitExt | ai-services/models/inpainting/inpaint.py:59 | Stem and extension concatenate back to the path. The extension is empty, or a dot followed by neither slash nor dot. It is empty exactly when every dot of the last component has only dots before it. |
| Paths.SplitExtAgreesWithSuffix | ai-services/models/inpainting/inpaint.py:59 | For a file name, an extension of two or more characters is exactly the `pathlib` suffix. |
| Paths.PartsOfJoin | ai-services/models/inpainting/inpaint.py:26 | Joining a valid component onto any directory adds exactly that component to the parsed path. |
| Paths.WithSuffixOfBareName | ai-services/models/inpainting/inpaint_api.py:50 | On a name without a suffix, `with_suffix` keeps the parent components and appends the suffix to the name. |
| Paths.DirnameOfChild | ai-services/models/inpainting/helper.py:72 | For a directory not ending in a slash, `x/y` splits back into `x` and `y`. |
| Paths.DirnameEmptyIffNoSlash | ai-services/models/inpainting/inpaint_api.py:62-64 | The directory part is empty exactly when the path has no slash. |
| Paths.WithSuffix | ai-services/models/inpainting/inpaint_api.py:50 | `with_suffix` raises exactly for a suffix with a slash, a suffix not starting with a dot, `.`, or a path with an empty name. |
| Paths.WithSuffixSetsSuffix | ai-services/models/inpainting/inpaint_api.py:50 | After `with_suffix(s)`, the path reports `s` as its suffix and keeps its parent components. |
| Paths.SuffixIsProper | ai-services/models/inpainting/inpaint_api.py:42 | A non-empty reported suffix is a dot followed by at least one character, with no other dot and no slash. |
| Paths.PartsOfRender | ai-services/models/inpainting/inpaint_api.py:51 | Rendering a path with `str()` and parsing it again gives back the same components. |
| Common.StripEmptyIffBlank | ai-services/models/ocr/ocr.py:193 | `s.strip() == ""` holds exactly for the all-whitespace strings. |
| InpaintTool.GlobMembers | ai-services/models/inpainting/inpaint.py:48-49 | A path is globbed for `*<ext>` exactly when it joins a non-hidden entry ending in `ext` onto the pattern's directory. |
| InpaintTool.DiscoverMembers | ai-services/models/inpainting/inpaint.py:45-49 | A path is discovered exactly when the glob for one of the eight suffix patterns returns it. The patterns are the four lower-case ones and their upper-cased forms. |
| InpaintTool.MaskCandidates | ai-services/models/inpainting/inpaint.py:58-67 | There are four candidates. For a slash-free file name, their base names are the stem with `.jpg`, `.jpeg`, `.png` and `.bmp`, in that order. |
| InpaintTool.MaskCandidatesInDir | ai-services/models/inpainting/inpaint.py:58-67 | Each candidate parses as the mask directory's components followed by one more, the stem with that candidate's extension. |
| InpaintTool.FindMask | ai-services/models/inpainting/inpaint.py:69-73 | There is no mask exactly when no candidate exists. Otherwise the result is the first existing candidate. |
| InpaintTool.FindMaskMonotone | ai-services/models/inpainting/inpaint.py:69-77 | A mask that is found is still found after more files are written. |
| InpaintTool.OutputFor | ai-services/models/inpainting/inpaint.py:25-26 | The output path keeps the image's base name. For a valid base name, it parses as the output directory's components followed by that name. |
| InpaintTool.ProcessSingleImage | ai-services/models/inpainting/inpaint.py:23-41 | The result is `True` exactly when loading succeeds, inference succeeds and the write does not raise. `False` leaves the file system alone. A written result lands at the output path with the image's size. |
| InpaintTool.CountsBounded | ai-services/models/inpainting/inpaint.py:56-82 | Successes and skipped images together never exceed the number of images. |
| InpaintTool.Step | ai-services/models/inpainting/inpaint.py:57-80 | An image is skipped exactly when none of its mask candidates exists, and then nothing changes. Otherwise it is processed with the first existing candidate, and its success and file system are those of `process_single_image`. |
| InpaintTool.ThreadAt | ai-services/models/inpainting/inpaint.py:57-80 | In a loop that threads a state, output `k` is the step on element `k` and the state left by the elements before it. |
| InpaintTool.OutcomeAt | ai-services/models/inpainting/inpaint.py:57-80 | The outcome of image `k` is its `Step` on the file system left by the images before it. |
| InpaintTool.OutcomesFit | ai-services/models/inpainting/inpaint.py:57-80 | Every outcome of the loop contains one of the image's candidates, and a mask present at the start is never missed. A success whose write went through has its output file at the end. The loop only adds files. |
| InpaintTool.StepFits | ai-services/models/inpainting/inpaint.py:57-80 | A step on a file system that only grew since the start still finds every mask that existed at the start. |
| InpaintTool.RunImages | ai-services/models/inpainting/inpaint.py:57-80 | The loop's outcomes and final file system are exactly those of threading `Step` through the images in order. |
| InpaintTool.CountSuccesses | ai-services/models/inpainting/inpaint.py:56-80 | The counter ends at the number of images processed with success. |
| InpaintTool.ProcessDirectory | ai-services/models/inpainting/inpaint.py:43-82 | Every discovered image gets one outcome, in order, exactly as `Step` threaded through the images gives it: skipped when no candidate exists at that point, otherwise processed with the first existing candidate. The success count is the number of processed successes, so with the skipped images it never exceeds the number of images found. No directory is created. |
| InpaintTool.Dispatch | ai-services/models/inpainting/inpaint.py:100-110 | Directory mode when both paths are directories, single mode when both are files, an error otherwise. |
| InpaintTool.OutputParentBecomesInput | ai-services/models/inpainting/inpaint.py:96-103 | With `--output x/y` where neither exists, ensuring the output creates `x`, so `--image x --mask x` then runs in directory mode. |
| InpaintTool.RunTool | ai-services/models/inpainting/inpaint.py:84-112 | The exit status is 0 exactly when the model loads, the output directory can be ensured and the inputs are not mismatched. A failed single image still exits 0. In directory mode the count and the file system are those of `Step` threaded through the discovered images, after the output directory is ensured. In single mode the file system is that of `process_single_image`. A mismatch only ensures the directory, and an early failure changes nothing. The success count never exceeds the number of images discovered, and on success the output directory exists. |

## Left out

- **Deployment.** `modal_deploy.py` is configuration without logic.
- **Inference.** Neural inference is not modelled. This covers the TorchScript LaMa network, `load_jit_model`, and the VisionEncoderDecoder model, feature extractor and tokenizer. The network is a shape function, and model loading or inference is a boolean outcome.
- **Floating point.** Not modelled:
  - the `/ 255.0` normalisation;
  - the output clipping;
  - the luminance weights and the `mean > 240` test, which is the boolean `mostlyWhite`;
  - the `np.mean` channel collapse of an RGB mask, whose result is taken as the mask grid.
  - the rounding of a fractional JSON number to a double by `json.loads`. `Api.Value.Number` holds the exact decimal, so a literal such as `0.99999999999999999` truncates to 0 here, where Python first rounds it to `1.0` and `int()` gives 1.
- **Masks with two or four channels.** Only single-channel and RGB masks are modelled. An LA or RGBA upload skips the `np.mean` collapse, is thresholded per channel, is saved as a multi-channel PNG, and is read back by the script as luminance, so the marked pixels can differ from those of the same stroke in RGB. Api.InpaintImage and Masks.UploadedMaskReachesModel take every mask as one grid.
- **Pixel contents.** The values written by `cv2.resize`, `BORDER_REFLECT`, cropping and colour conversion are not modelled; only dimensions are.
- **I/O.** PIL and OpenCV decoding and encoding, base64, logging and `print`, FastAPI routing and CORS, environment variables and argument parsing are not modelled. The argument parsing includes `required=True` and the defaults `output` and `cuda`.
- **Subprocess plumbing.** The temp-file writes, the clean-up and the choice of Python interpreter in `inpaint_image` are not modelled. The subprocess is represented by its exit status and output bytes.
- **Script generation.** `create_inpaint_api_script` writes a file only when the script is missing, and the generated text is not the script that is modelled.
- **Trivial routes.** The `/` and `/health` routes return constants.
- **CLI entry point.** `ocr.py`'s own `main` is a command-line demonstration around `__call__`.
- **Glob details.** The directory listing is given in the order `glob` returns it. Glob magic characters inside the directory name and case-insensitive file systems are not modelled.
- **Case folding.** `str.lower()` is modelled on ASCII letters only.
- **Path library version.** `PurePosixPath` follows CPython 3.12. Earlier versions differ in details of `with_suffix` validation.
- **`os.makedirs`.** Failures other than the empty path are not modelled, such as a file that is in the way or missing permissions.
- Helper.MakeDirs: a last component `.` is recorded as created, where `os.makedirs` returns without calling `mkdir`. Directories are path strings, so `a/.` and `a` are different entries either way.
- **JSON values.** A JSON value in a selection is either one `int()` accepts, taken as the number it denotes, or one `int()` rejects. Strings count as numbers only when `int()` parses them (`"12"`, not `"2.5"`). Infinities and non-string ids are not modelled.
- **Model-load failures** in `inpaint_api.py` and `inpaint.py` happen outside any `try`. They are modelled as exit status 1, the status of an uncaught exception.
- **`Api.InpaintImage`: failure messages.** The failure message keeps the prefix and the HTTP status and reason. The exception detail, the subprocess's stderr and the traceback are not modelled. Exceptions other than undecodable uploads, a failing script and a missing output are not modelled.
- **`Api.ProcessOcr`: crop and image decoding.** A crop that raises is an engine reply, `CropFailed`. The decoded image is represented only by its height and width.
- **`Api.TranslateText`: JSON structure.** JSON structures other than an object with an optional `translations` list of optional `text` entries are not modelled.
- **Shared `Raster` types.** `Api.Raster` (any size) is kept separate from `Helper.Raster` (positive sizes). A decoded upload may be empty, but an image read by `cv2.imread` is not.

## Findings

| source | as written | input that shows it | evidently intended | confidence | as-written member | corrected member |
|---|---|---|---|---|---|---|
| ai-services/models/ocr/ocr.py:36 | `_load_model` skips a reload only when `model_load_error` is truthy, so a recorded empty message does not stop further attempts | a load whose `self.model.to(device)` raises an exception with an empty message: the next call loads again, and a success leaves both `model_loaded` and a recorded error set | any recorded error ends further load attempts, so loaded and error are never both set | low, not executed | MangaOcr.LoadModel, MangaOcr.SilentFailureIsRetried, MangaOcr.CallAsWritten, MangaOcr.EmptyErrorDivergence | MangaOcr.LoadModelOnce, MangaOcr.Call |

=== FILE: app.dfy ===
/** The HTTP back-end's request shaping: the per-selection loop of the OCR
    endpoint, the translation loop, and the inpaint endpoint's mask
    thresholding and response. The OCR engine, the DeepL service and the
    inpainting subprocess appear only through the replies they give. */
module Api {
  import opened Common
  import Paths
  import Masks

  // ---------------------------------------------------------------------
  // OCR endpoint

  /** A JSON value in a selection field: one `int()` accepts, by the number
      it denotes (a JSON number or boolean, or a string spelling an integer),
      or anything `int()` rejects (such as `"2.5"`, `null` or a list).
      `x` is the exact decimal written in the JSON (1 or 0 for a boolean);
      the rounding of a fractional literal to the nearest double by
      `json.loads` is not modelled. */
  datatype Value = Number(x: real) | NonNumeric

  /** A selection record as posted; `None` marks a missing key. */
  datatype Selection = Selection(
    id: Option<string>,
    left: Option<Value>,
    top: Option<Value>,
    width: Option<Value>,
    height: Option<Value>)

  /** An axis-aligned rectangle in image pixels. */
  datatype Rect = Rect(left: int, top: int, width: int, height: int)

  /** The decoded image's `shape[:2]`. */
  datatype Raster = Raster(height: nat, width: nat)

  datatype OcrItem = OcrItem(id: string, text: string)

  /** What running the OCR engine on one crop gives: its text (`None` when it
      found nothing), or an exception message. */
  datatype OcrReply = Recognised(text: Option<string>) | CropFailed(message: string)

  const UnknownId: string := "unknown"
  const DefaultLeft: int := 0
  const DefaultTop: int := 0
  const DefaultWidth: int := 100
  const DefaultHeight: int := 100
  const InvalidSelectionText: string := "Error: Invalid selection size"

  /** The texts substituted when OCR finds nothing. */
  const Placeholders: seq<string> := [
    "こんにちは",
    "さようなら",
    "元気ですか",
    "私は元気です",
    "日本語を勉強しています",
    "マンガが好きです",
    "とても面白いですね"
  ]

  /** `int(x)` on a number: truncation toward zero. */
  function TruncToInt(x: real): (r: int)
    ensures x >= 0.0 ==> r >= 0 && r as real <= x < (r + 1) as real
    ensures x < 0.0 ==> r <= 0 && (r - 1) as real < x <= r as real
  {
    if x >= 0.0 then x.Floor else -((-x).Floor)
  }

  /** The bounds above pin truncation down: any integer within them is the
      truncation. */
  lemma TruncToIntUnique(x: real, n: int)
    requires x >= 0.0 ==> n >= 0 && n as real <= x < (n + 1) as real
    requires x < 0.0 ==> n <= 0 && (n - 1) as real < x <= n as real
    ensures n == TruncToInt(x)
  {
  }

  /** `int(selection.get(key, default))`; `None` where `int()` raises. */
  function FieldToInt(v: Option<Value>, default: int): (r: Option<int>)
    ensures v.None? ==> r == Some(default)
    ensures v.Some? && v.value.Number? ==> r == Some(TruncToInt(v.value.x))
    ensures r.None? <==> v == Some(NonNumeric)
  {
    match v
    case None => Some(default)
    case Some(Number(x)) => Some(TruncToInt(x))
    case Some(NonNumeric) => None
  }

  function IdOf(sel: Selection): string {
    sel.id.GetOr(UnknownId)
  }

  /** The rectangle a selection asks for, with missing fields defaulted;
      `None` when some field cannot be converted. */
  function Requested(sel: Selection): (r: Option<Rect>)
    ensures r.Some? <==>
      && sel.left != Some(NonNumeric) && sel.top != Some(NonNumeric)
      && sel.width != Some(NonNumeric) && sel.height != Some(NonNumeric)
    ensures r.Some? && sel.left.None? ==> r.value.left == DefaultLeft
    ensures r.Some? && sel.top.None? ==> r.value.top == DefaultTop
    ensures r.Some? && sel.width.None? ==> r.value.width == DefaultWidth
    ensures r.Some? && sel.height.None? ==> r.value.height == DefaultHeight
    ensures r.Some? && sel.left.Some? && sel.left.value.Number? ==> r.value.left == TruncToInt(sel.left.value.x)
    ensures r.Some? && sel.top.Some? && sel.top.value.Number? ==> r.value.top == TruncToInt(sel.top.value.x)
    ensures r.Some? && sel.width.Some? && sel.width.value.Number? ==> r.value.width == TruncToInt(sel.width.value.x)
    ensures r.Some? && sel.height.Some? && sel.height.value.Number? ==> r.value.height == TruncToInt(sel.height.value.x)
  {
    var l := FieldToInt(sel.left, DefaultLeft);
    var t := FieldToInt(sel.top, DefaultTop);
    var w := FieldToInt(sel.width, DefaultWidth);
    var h := FieldToInt(sel.height, DefaultHeight);
    if l.Some? && t.Some? && w.Some? && h.Some? then Some(Rect(l.value, t.value, w.value, h.value))
    else None
  }


  /** The rectangle lies inside the image. */
  predicate Inside(r: Rect, img: Raster) {
    0 <= r.left && 0 <= r.top && r.left + r.width <= img.width && r.top + r.height <= img.height
  }

  /** The endpoint's bounds rule: move a negative origin to 0, then cut width
      and height at the image's right and bottom edges. The result starts
      inside the image, never grows, and ends at or before the edges. */
  function Clamp(r: Rect, img: Raster): (c: Rect)
    ensures c.left >= 0 && c.top >= 0
    ensures c.left + c.width <= img.width && c.top + c.height <= img.height
    ensures c.width <= r.width && c.height <= r.height
    ensures c.left >= r.left && c.top >= r.top
    ensures r.left >= 0 && r.top >= 0 ==> c.left == r.left && c.top == r.top
    ensures r.left < 0 ==> c.left == 0
    ensures r.top < 0 ==> c.top == 0
    ensures c.width == r.width || c.left + c.width == img.width
    ensures c.height == r.height || c.top + c.height == img.height
  {
    var left := Max(0, r.left);
    var top := Max(0, r.top);
    Rect(left, top, Min(r.width, img.width - left), Min(r.height, img.height - top))
  }

  /** A rectangle already inside the image is kept as it is. */
  lemma ClampKeepsInside(r: Rect, img: Raster)
    requires Inside(r, img)
    ensures Clamp(r, img) == r
  {
  }

  /** Clamping twice is clamping once. */
  lemma ClampIdempotent(r: Rect, img: Raster)
    ensures Clamp(Clamp(r, img), img) == Clamp(r, img)
  {
  }

  /** A clamped rectangle is empty exactly when it is no crop at all; one that
      is not empty lies inside the image, so the crop has exactly its size. */
  predicate IsEmptyRect(c: Rect) {
    c.width <= 0 || c.height <= 0
  }

  lemma {:induction false} NonEmptyClampIsInside(r: Rect, img: Raster)
    ensures !IsEmptyRect(Clamp(r, img)) ==> Inside(Clamp(r, img), img)
    ensures r.left > img.width ==> IsEmptyRect(Clamp(r, img))
    ensures r.top > img.height ==> IsEmptyRect(Clamp(r, img))
  {
    var c := Clamp(r, img);
    if r.left > img.width {
      assert c.left == r.left;
      assert c.width <= img.width - r.left < 0;
    }
    if r.top > img.height {
      assert c.top == r.top;
      assert c.height <= img.height - r.top < 0;
    }
  }

  /** The text stored for a crop the OCR engine was run on: its own text when
      non-blank, the chosen placeholder when it found nothing, and an
      `Error:` message when processing raised. */
  function ReplyText(reply: OcrReply, choice: nat): (t: string)
    ensures !IsBlank(t)
    ensures reply.Recognised? && reply.text.Some? && !IsBlank(reply.text.value) ==> t == reply.text.value
    ensures reply.Recognised? && (reply.text.None? || IsBlank(reply.text.value)) ==> t in Placeholders
    ensures reply.CropFailed? ==> t == "Error: " + reply.message
  {
    match reply
    case CropFailed(m) =>
      assert ("Error: " + m)[0] == 'E';
      "Error: " + m
    case Recognised(text) =>
      if text.None? || Strip(text.value) == "" then
        var p := Placeholders[choice % |Placeholders|];
        assert !IsSpace(p[0]);
        p
      else
        StripEmptyIffBlank(text.value);
        text.value
  }

  /** One selection's result item; `None` when `int()` raised on one of its
      fields (which fails the whole request). */
  function SelectionItem(sel: Selection, img: Raster, recognise: Rect -> OcrReply, choice: nat): (r: Option<OcrItem>)
    ensures r.Some? <==> Requested(sel).Some?
  {
    match Requested(sel)
    case None => None
    case Some(rect) =>
      var c := Clamp(rect, img);
      if IsEmptyRect(c) then Some(OcrItem(IdOf(sel), InvalidSelectionText))
      else Some(OcrItem(IdOf(sel), ReplyText(recognise(c), choice)))
  }

  /** An item carries its selection's id and a non-blank text: the fixed
      error text when the clamped rectangle is empty, otherwise the reply of
      the OCR engine, which is consulted only on a rectangle inside the
      image. */
  lemma SelectionItemSpec(sel: Selection, img: Raster, recognise: Rect -> OcrReply, choice: nat)
    requires Requested(sel).Some?
    ensures var item := SelectionItem(sel, img, recognise, choice).value;
      var c := Clamp(Requested(sel).value, img);
      && item.id == IdOf(sel)
      && !IsBlank(item.text)
      && (IsEmptyRect(c) ==> item.text == InvalidSelectionText)
      && (!IsEmptyRect(c) ==> Inside(c, img) && item.text == ReplyText(recognise(c), choice))
  {
    var rect := Requested(sel).value;
    NonEmptyClampIsInside(rect, img);
    assert InvalidSelectionText[0] == 'E';
  }

  /** Every selection converts. */
  predicate AllConvertible(sels: seq<Selection>) {
    forall i :: 0 <= i < |sels| ==> Requested(sels[i]).Some?
  }

  /** Apply `f` to every element together with its index, in order, giving
      up at the first element it maps to `None`. */
  method CollectAll<T, U>(xs: seq<T>, f: (T, nat) -> Option<U>) returns (r: Option<seq<U>>)
    ensures r.Some? <==> forall i :: 0 <= i < |xs| ==> f(xs[i], i).Some?
    ensures r.Some? ==> |r.value| == |xs|
    ensures r.Some? ==> forall i :: 0 <= i < |xs| ==> Some(r.value[i]) == f(xs[i], i)
  {
    var results: seq<U> := [];
    var i := 0;
    while i < |xs|
      invariant 0 <= i <= |xs|
      invariant |results| == i
      invariant forall k :: 0 <= k < i ==> Some(results[k]) == f(xs[k], k)
    {
      var y := f(xs[i], i);
      if y.None? {
        return None;
      }
      results := results + [y.value];
      i := i + 1;
    }
    return Some(results);
  }

  /** `process_ocr`. `selections` holds the records the loop meets when the
      form field parses as JSON, has a length, and iterating it yields only
      records (so `{}` or `""` give no selections at all); it is `None`,
      which ends in status 500, when parsing fails, the value has no length,
      or iteration meets a non-record (as in `[1]` or `{"a": 1}`). `image` is
      `None` when the upload does not decode, and
      `pick(i)` is the placeholder drawn for the i-th selection. The request
      fails as a whole with status 500, or answers with one item per
      selection, in order, carrying that selection's id and a non-blank text. */
  method ProcessOcr(selections: Option<seq<Selection>>, image: Option<Raster>,
                    recognise: Rect -> OcrReply, pick: nat -> nat)
    returns (r: Result<seq<OcrItem>, int>)
    ensures r.Err? ==> r.error == 500
    ensures r.Ok? <==> selections.Some? && image.Some? && AllConvertible(selections.value)
    ensures r.Ok? ==> |r.value| == |selections.value|
    ensures r.Ok? ==> forall i :: 0 <= i < |r.value| ==>
      Some(r.value[i]) == SelectionItem(selections.value[i], image.value, recognise, pick(i))
    ensures r.Ok? ==> forall i :: 0 <= i < |r.value| ==>
      r.value[i].id == IdOf(selections.value[i]) && !IsBlank(r.value[i].text)
  {
    if selections.None? || image.None? {
      return Err(500);
    }
    var sels := selections.value;
    var img := image.value;
    var item := (sel: Selection, i: nat) => SelectionItem(sel, img, recognise, pick(i));
    var items := CollectAll(sels, item);
    if items.None? {
      if AllConvertible(sels) {
        forall i | 0 <= i < |sels| ensures item(sels[i], i).Some? {
          assert item(sels[i], i) == SelectionItem(sels[i], img, recognise, pick(i));
          assert Requested(sels[i]).Some?;
        }
        assert false;
      }
      return Err(500);
    }
    var results := items.value;
    forall k | 0 <= k < |results|
      ensures Some(results[k]) == SelectionItem(sels[k], img, recognise, pick(k))
      ensures results[k].id == IdOf(sels[k]) && !IsBlank(results[k].text)
    {
      assert Some(results[k]) == item(sels[k], k);
      SelectionItemSpec(sels[k], img, recognise, pick(k));
    }
    return Ok(results);
  }

  // ---------------------------------------------------------------------
  // Translation endpoint

  datatype TranslationItem = TranslationItem(id: string, text: string)

  datatype TranslationResponse = TranslationResponse(id: string, original: string, translated: string)

  /** The body of a DeepL reply: not a JSON object, an object without a
      `translations` key, or its list of entries (`None` for an entry with no
      `text`). */
  datatype DeepLBody = Unparsable | NoTranslations | Translations(entries: seq<Option<string>>)

  /** A DeepL round trip: the request raised, or a status and a body. */
  datatype DeepLReply = Unreachable | Reply(status: int, body: DeepLBody)

  const TranslationErrorText: string := "Translation error"

  /** `data.get("translations", [{}])[0].get("text", "Translation error")`;
      `None` where that raises (a body that is not an object, or an empty
      list). */
  function TranslatedText(body: DeepLBody): (r: Option<string>)
    ensures r.None? <==> body.Unparsable? || body == Translations([])
    ensures body.NoTranslations? ==> r == Some(TranslationErrorText)
    ensures body.Translations? && |body.entries| > 0 && body.entries[0].None? ==> r == Some(TranslationErrorText)
    ensures body.Translations? && |body.entries| > 0 && body.entries[0].Some? ==> r == body.entries[0]
  {
    match body
    case Unparsable => None
    case NoTranslations => Some(TranslationErrorText)
    case Translations(es) => if |es| == 0 then None else Some(es[0].GetOr(TranslationErrorText))
  }

  /** A reply the loop accepts: status 200 and a usable body. */
  predicate Accepted(reply: DeepLReply) {
    reply.Reply? && reply.status == 200 && TranslatedText(reply.body).Some?
  }

  /** The key counts as configured when set and non-empty. */
  predicate KeyConfigured(apiKey: Option<string>) {
    apiKey.Some? && apiKey.value != ""
  }

  /** `translate_text`. `replies[i]` is DeepL's answer to the i-th request.
      Either every item is answered, in order, with its id and original text
      copied, or the whole batch fails with status 500: no key, or any reply
      that is not an accepted 200. */
  method TranslateText(apiKey: Option<string>, items: seq<TranslationItem>, replies: seq<DeepLReply>)
    returns (r: Result<seq<TranslationResponse>, int>)
    requires |replies| == |items|
    ensures r.Err? ==> r.error == 500
    ensures r.Ok? <==> KeyConfigured(apiKey) && forall i :: 0 <= i < |items| ==> Accepted(replies[i])
    ensures r.Ok? ==> |r.value| == |items|
    ensures r.Ok? ==> forall i :: 0 <= i < |items| ==>
      && r.value[i].id == items[i].id
      && r.value[i].original == items[i].text
      && Some(r.value[i].translated) == TranslatedText(replies[i].body)
  {
    if !KeyConfigured(apiKey) {
      return Err(500);
    }
    var results: seq<TranslationResponse> := [];
    var i := 0;
    while i < |items|
      invariant 0 <= i <= |items|
      invariant |results| == i
      invariant forall k :: 0 <= k < i ==> Accepted(replies[k])
      invariant forall k :: 0 <= k < i ==>
        && results[k].id == items[k].id
        && results[k].original == items[k].text
        && Some(results[k].translated) == TranslatedText(replies[k].body)
    {
      var reply := replies[i];
      if reply.Unreachable? || reply.status != 200 {
        return Err(500);
      }
      var text := TranslatedText(reply.body);
      if text.None? {
        return Err(500);
      }
      results := results + [TranslationResponse(items[i].id, items[i].text, text.value)];
      i := i + 1;
    }
    return Ok(results);
  }

  // ---------------------------------------------------------------------
  // Inpaint endpoint

  datatype InpaintResponse = InpaintResponse(
    success: bool,
    message: string,
    image: Option<seq<int>>,
    format: Option<string>)

  /** How the inpainting subprocess ends: its exit status, and the bytes of
      its output file if that file exists. */
  datatype ScriptRun = ScriptRun(exitCode: int, output: Option<seq<int>>)

  /** The response, and the mask written for the subprocess, if any. */
  datatype InpaintRun = InpaintRun(response: InpaintResponse, maskSent: Option<Masks.Grid>)

  const TmpDir: string := "/tmp/panelpachi"
  const SuccessMessage: string := "Inpainting completed successfully"
  const FailurePrefix: string := "Inpainting failed: "

  /** The temporary output path for a process id. */
  function TmpOutputPath(pid: nat): string {
    TmpDir + "/" + ("tmp_output_" + NatToString(pid) + ".png")
  }

  /** The data-URL format named after the output path's suffix: `jpeg` for
      `.jpg` or `.jpeg` in any letter case, `png` for anything else. */
  function ImageFormat(path: string): (r: string)
    ensures r == "jpeg" || r == "png"
    ensures r == "jpeg" <==> IsJpegExt(Lower(Paths.Suffix(path)))
  {
    if IsJpegExt(Lower(Paths.Suffix(path))) then "jpeg" else "png"
  }

  predicate IsJpegExt(ext: string) {
    ext == ".jpg" || ext == ".jpeg"
  }

  /** The temporary output's file name has no slash. */
  lemma TmpNameHasNoSlash(digits: string)
    requires forall k :: 0 <= k < |digits| ==> IsDigit(digits[k])
    ensures '/' !in "tmp_output_" + digits + ".png"
  {
    var name := "tmp_output_" + digits + ".png";
    forall k | 0 <= k < |name| ensures name[k] != '/' {
      if 11 <= k < 11 + |digits| {
        assert name[k] == digits[k - 11];
      }
    }
  }

  lemma LowerPng()
    ensures Lower(".png") == ".png"
  {
  }

  /** The temporary output always has the `.png` suffix, so a successful
      response always reports the format `png`. */
  lemma {:induction false} TmpOutputIsPng(pid: nat)
    ensures Paths.Suffix(TmpOutputPath(pid)) == ".png"
    ensures ImageFormat(TmpOutputPath(pid)) == "png"
  {
    var digits := NatToString(pid);
    var stem := "tmp_output_" + digits;
    TmpNameHasNoSlash(digits);
    assert stem[0] == 't';
    assert Paths.ProperSuffix(".png");
    Paths.SuffixOfChild(TmpDir, stem, ".png");
    LowerPng();
  }

  /** Why an inpaint request failed. */
  datatype InpaintFailure = BadImage | BadMask | ScriptFailed | NoOutput

  function FailureText(f: InpaintFailure): string {
    match f
    case BadImage => "400: Invalid image data"
    case BadMask => "400: Invalid mask data"
    case ScriptFailed => "500: Inpainting failed"
    case NoOutput => "500: Inpainting did not produce output file"
  }

  function Failed(f: InpaintFailure): InpaintResponse {
    InpaintResponse(false, FailurePrefix + FailureText(f), None, None)
  }

  /** `inpaint_image`. `mask` is the uploaded mask as an 8-bit grayscale
      grid, `None` when it does not decode. Every failure, including the
      HTTP errors raised inside the handler, becomes `success = false` with
      neither image nor format; a success carries the output file's bytes and
      the format `png`. The mask handed to the subprocess is binary. */
  function InpaintImage(imageDecodes: bool, mask: Option<Masks.Grid>, pid: nat, script: ScriptRun): (r: InpaintRun)
    ensures r.response.success <==>
      imageDecodes && mask.Some? && script.exitCode == 0 && script.output.Some?
    ensures !r.response.success ==>
      r.response.image.None? && r.response.format.None?
      && |r.response.message| >= |FailurePrefix| && r.response.message[..|FailurePrefix|] == FailurePrefix
    ensures r.response.success ==>
      r.response.image == script.output && r.response.format == Some("png")
      && r.response.message == SuccessMessage
    ensures r.maskSent.Some? <==> imageDecodes && mask.Some?
    ensures r.maskSent.Some? ==>
      Masks.SameDims(r.maskSent.value, mask.value) && Masks.IsBinary(r.maskSent.value, 255)
  {
    if !imageDecodes then InpaintRun(Failed(BadImage), None)
    else if mask.None? then InpaintRun(Failed(BadMask), None)
    else
      var sent := Masks.BinaryMask(mask.value);
      if script.exitCode != 0 then InpaintRun(Failed(ScriptFailed), Some(sent))
      else if script.output.None? then InpaintRun(Failed(NoOutput), Some(sent))
      else
        TmpOutputIsPng(pid);
        var format := ImageFormat(TmpOutputPath(pid));
        InpaintRun(InpaintResponse(true, SuccessMessage, script.output, Some(format)), Some(sent))
  }
}

=== FILE: common.dfy ===
/** Shared vocabulary: failure-carrying datatypes and the few Python `str`
    operations the services rely on (whitespace stripping, ASCII lower-casing,
    decimal rendering of a process id). */
module Common {

  datatype Option<+T> = None | Some(value: T) {
    function GetOr(default: T): T {
      match this
      case Some(v) => v
      case None => default
    }
  }

  /** `Err` stands for a Python exception that escapes the modelled code. */
  datatype Result<+T, +E> = Ok(value: T) | Err(error: E)

  /** Python's `str.isspace` for a single character: the ASCII blanks, the
      information separators and the Unicode space separators. */
  predicate IsSpace(c: char) {
    || c == ' ' || c == '\t' || c == '\n' || c == '\r'
    || c == '\U{0B}' || c == '\U{0C}'
    || ('\U{1C}' <= c <= '\U{1F}')
    || c == '\U{85}' || c == '\U{A0}' || c == '\U{1680}'
    || ('\U{2000}' <= c <= '\U{200A}')
    || c == '\U{2028}' || c == '\U{2029}' || c == '\U{202F}' || c == '\U{205F}'
    || c == '\U{3000}'
  }

  /** Every character is whitespace (the empty string included). */
  predicate IsBlank(s: string) {
    forall i :: 0 <= i < |s| ==> IsSpace(s[i])
  }

  /** Python's `s.lstrip()`. */
  function StripLeft(s: string): (r: string)
    ensures |r| <= |s| && r == s[|s| - |r|..]
    ensures |r| > 0 ==> !IsSpace(r[0])
    ensures forall i :: 0 <= i < |s| - |r| ==> IsSpace(s[i])
  {
    if |s| == 0 then s
    else if IsSpace(s[0]) then StripLeft(s[1..])
    else s
  }

  /** Python's `s.rstrip()`. */
  function StripRight(s: string): (r: string)
    ensures |r| <= |s| && r == s[..|r|]
    ensures |r| > 0 ==> !IsSpace(r[|r| - 1])
    ensures forall i :: |r| <= i < |s| ==> IsSpace(s[i])
  {
    if |s| == 0 then s
    else if IsSpace(s[|s| - 1]) then StripRight(s[..|s| - 1])
    else s
  }

  /** Python's `s.strip()`. */
  function Strip(s: string): string {
    StripRight(StripLeft(s))
  }

  /** `s.strip() == ""` holds exactly for the all-whitespace strings. */
  lemma {:induction false} StripEmptyIffBlank(s: string)
    ensures Strip(s) == "" <==> IsBlank(s)
  {
    var l := StripLeft(s);
    if Strip(s) == "" {
      // StripRight removed every character of l, yet l cannot start with a
      // blank, so StripLeft already consumed all of s
      assert |l| == 0;
    } else {
      assert |l| > 0 && !IsSpace(l[0]);
      assert s[|s| - |l|] == l[0];
    }
  }

  /** A non-blank string keeps at least one character when stripped. */
  lemma NonBlankSurvivesStrip(s: string)
    requires !IsBlank(s)
    ensures Strip(s) != ""
  {
    StripEmptyIffBlank(s);
  }

  function LowerChar(c: char): char {
    if 'A' <= c <= 'Z' then (c as int + 32) as char else c
  }

  /** `str.lower()` on the ASCII letters; every other character is kept. */
  function Lower(s: string): (r: string)
    ensures |r| == |s|
    ensures forall i :: 0 <= i < |s| ==> r[i] == LowerChar(s[i])
  {
    seq(|s|, i requires 0 <= i < |s| => LowerChar(s[i]))
  }

  predicate IsDigit(c: char) {
    '0' <= c <= '9'
  }

  /** Decimal rendering of a natural number, as an f-string does. */
  function NatToString(n: nat): (r: string)
    ensures |r| > 0
    ensures forall i :: 0 <= i < |r| ==> IsDigit(r[i])
  {
    var d := [('0' as int + n % 10) as char];
    if n < 10 then d else NatToString(n / 10) + d
  }

  function Max(a: int, b: int): int { if a >= b then a else b }

  function Min(a: int, b: int): int { if a <= b then a else b }
}

=== FILE: helper.dfy ===
/** The inpainting helpers: array-shape arithmetic (`norm_img`,
    `pad_img_to_modulo`), loading an image/mask pair from disk
    (`prepare_image_mask`) and `ensure_directory`. Arrays are represented by
    their numpy shapes; pixel values written by `cv2.resize` and
    `BORDER_REFLECT` are not modelled. */
module Helper {
  import opened Common
  import Paths

  /** A numpy shape: (H, W) for one channel, (H, W, C) for several. */
  type Shape = seq<nat>

  type Pos = n: int | n > 0 witness 1

  /** What `cv2.imread` decodes from a file: its pixel dimensions. */
  datatype Raster = Raster(height: Pos, width: Pos)

  /** The file system as the scripts observe it: which paths are files or
      directories, and which files decode as images. */
  datatype Fs = Fs(files: set<string>, dirs: set<string>, images: map<string, Raster>) {
    /** `os.path.exists` */
    predicate Exists(p: string) {
      p in files || p in dirs
    }
  }

  /** Exceptions raised while loading inputs. */
  datatype LoadError =
    | FileNotFound(path: string)  // FileNotFoundError
    | Unreadable(path: string)    // ValueError: cv2.imread returned None

  /** Exceptions `pad_img_to_modulo` can raise. */
  datatype PadError =
    | NotAnImage      // the shape does not unpack into (h, w) or (h, w, c)
    | ZeroModulus     // ZeroDivisionError
    | NegativeBorder  // cv2.copyMakeBorder rejects a negative border

  /** Python's `%`: the result takes the sign of the divisor. */
  function PyMod(a: int, m: int): int
    requires m != 0
  {
    if m > 0 then a % m else -((-a) % (-m))
  }

  /** `norm_img`'s shape transform: a single-channel (H, W) becomes (1, H, W)
      and (H, W, C) becomes (C, H, W); numpy raises on any other rank. */
  function NormImg(s: Shape): (r: Option<Shape>)
    ensures r.Some? <==> |s| == 2 || |s| == 3
    ensures r.Some? ==> |r.value| == 3 && r.value[1..] == s[..2]
    ensures r.Some? ==> r.value[0] == (if |s| == 2 then 1 else s[2])
  {
    if |s| == 2 then Some([1, s[0], s[1]])
    else if |s| == 3 then Some([s[2], s[0], s[1]])
    else None
  }

  /** `permute(1, 2, 0)`, which `forward` applies to the network's output,
      undoes `norm_img` on a three-dimensional array; a two-dimensional one
      comes back with the added single channel. */
  lemma PermuteUndoesNormImg(s: Shape)
    requires |s| == 2 || |s| == 3
    ensures var r := NormImg(s).value; [r[1], r[2], r[0]] == (if |s| == 3 then s else s + [1])
  {
  }

  /** The rows (or columns) `pad_img_to_modulo` adds to a dimension `h`. */
  function PadAmount(h: nat, m: int): int
    requires m != 0
  {
    PyMod(m - PyMod(h, m), m)
  }

  /** For a positive modulus the padding is the least non-negative amount that
      makes the dimension divisible: below the modulus, zero exactly for an
      already divisible dimension, and no smaller amount works. */
  lemma PadAmountSpec(h: nat, m: int)
    requires m > 0
    ensures 0 <= PadAmount(h, m) < m
    ensures (h + PadAmount(h, m)) % m == 0
    ensures PadAmount(h, m) == 0 <==> h % m == 0
    ensures forall b: nat :: b < PadAmount(h, m) ==> !FillsTo(h, b, m)
  {
    var r := h % m;
    var q := h / m;
    assert h == q * m + r;
    if r == 0 {
      ModUnique(m, m, 1, 0);
      assert PadAmount(h, m) == 0;
    } else {
      ModUnique(m - r, m, 0, m - r);
      assert PadAmount(h, m) == m - r;
      assert h + (m - r) == (q + 1) * m;
      ModUnique(h + (m - r), m, q + 1, 0);
      forall b: nat | b < m - r ensures !FillsTo(h, b, m) {
        assert h + b == q * m + (r + b);
        ModUnique(h + b, m, q, r + b);
      }
    }
  }

  /** Adding `b` to `h` reaches a multiple of `m`. */
  predicate FillsTo(h: int, b: int, m: int)
    requires m > 0
  {
    (h + b) % m == 0
  }

  /** Euclidean division is unique: a quotient and a remainder in range are
      the ones `/` and `%` produce. */
  lemma ModUnique(x: int, m: int, q: int, k: int)
    requires m > 0 && 0 <= k < m && x == q * m + k
    ensures x % m == k && x / m == q
  {
    var q', k' := x / m, x % m;
    assert x == q' * m + k';
    assert (q - q') * m == k' - k;
    if q - q' >= 1 {
      MulAtLeast(q - q', m);
    } else if q - q' <= -1 {
      MulAtLeast(q' - q, m);
    }
  }

  lemma MulAtLeast(d: int, m: int)
    requires d >= 1 && m > 0
    ensures d * m >= m
  {
    assert d * m == (d - 1) * m + m;
  }

  /** The channel axis `cv2.copyMakeBorder` hands back: numpy's (H, W, C)
      keeps its C, except that a single-channel result comes back as a plain
      (H, W) array. */
  function ChannelAxis(s: Shape): (r: Shape)
    requires |s| == 2 || |s| == 3
    ensures |r| <= 1 && (r == [] <==> |s| == 2 || s[2] == 1)
    ensures r != [] ==> r == s[2..]
  {
    if |s| == 3 && s[2] != 1 then s[2..] else []
  }

  /** `pad_img_to_modulo`: pad the bottom and the right so that height and
      width become multiples of `m`. */
  function PadToModulo(s: Shape, m: int): (r: Result<Shape, PadError>)
    ensures |s| != 2 && |s| != 3 ==> r == Err(NotAnImage)
    ensures (|s| == 2 || |s| == 3) && m == 0 ==> r == Err(ZeroModulus)
    ensures (|s| == 2 || |s| == 3) && m > 0 ==> r.Ok?
    ensures r.Ok? ==> |r.value| >= 2 && r.value[2..] == ChannelAxis(s)
    ensures r.Ok? ==> r.value[0] >= s[0] && r.value[1] >= s[1]
  {
    if |s| != 2 && |s| != 3 then Err(NotAnImage)
    else if m == 0 then Err(ZeroModulus)
    else
      var bottom := PadAmount(s[0], m);
      var right := PadAmount(s[1], m);
      assert m > 0 ==> bottom >= 0 && right >= 0 by {
        if m > 0 { PadAmountSpec(s[0], m); PadAmountSpec(s[1], m); }
      }
      if bottom < 0 || right < 0 then Err(NegativeBorder)
      else
        Ok([s[0] + bottom, s[1] + right] + ChannelAxis(s))
  }

  /** With a positive modulus the padded height and width are multiples of it,
      each grew by less than the modulus, and only the bottom/right grew. */
  lemma PadToModuloDivisible(s: Shape, m: int)
    requires |s| == 2 || |s| == 3
    requires m > 0
    ensures PadToModulo(s, m).Ok?
    ensures PadToModulo(s, m).value[0] % m == 0 && PadToModulo(s, m).value[1] % m == 0
    ensures PadToModulo(s, m).value[0] - s[0] < m && PadToModulo(s, m).value[1] - s[1] < m
    ensures (PadToModulo(s, m).value[0] == s[0]) <==> s[0] % m == 0
    ensures (PadToModulo(s, m).value[1] == s[1]) <==> s[1] % m == 0
  {
    PadAmountSpec(s[0], m);
    PadAmountSpec(s[1], m);
  }

  /** An RGB image and a grayscale mask keep their rank: (H, W, 3) pads to
      (H', W', 3) and (H, W) to (H', W'). Only a one-channel (H, W, 1) array
      loses its channel axis. */
  lemma PadToModuloRank(s: Shape, m: int)
    requires |s| == 2 || |s| == 3
    requires m > 0
    ensures |PadToModulo(s, m).value| == |s| <==> |s| == 2 || s[2] != 1
  {
  }

  /** Padding an already padded image adds nothing. */
  lemma PadToModuloIdempotent(s: Shape, m: int)
    requires |s| == 2 || |s| == 3
    requires m > 0
    ensures PadToModulo(PadToModulo(s, m).value, m) == PadToModulo(s, m)
  {
    var p := PadToModulo(s, m).value;
    PadToModuloDivisible(s, m);
    PadToModuloDivisible(p, m);
    assert ChannelAxis(p) == ChannelAxis(s);
    assert PadToModulo(p, m).value == p;
  }

  /** The prepared pair: an RGB image (H, W, 3), a grayscale mask (H, W), and
      whether the mask had to be resized to get there. */
  datatype Prepared = Prepared(image: Shape, mask: Shape, maskResized: bool)

  /** `prepare_image_mask`: the image is checked for existence and decoded
      before the mask is; the mask is resized to the image's height and width
      only when they differ. */
  function PrepareImageMask(fs: Fs, imagePath: string, maskPath: string): (r: Result<Prepared, LoadError>)
    ensures !fs.Exists(imagePath) ==> r == Err(FileNotFound(imagePath))
    ensures fs.Exists(imagePath) && imagePath !in fs.images ==> r == Err(Unreadable(imagePath))
    ensures fs.Exists(imagePath) && imagePath in fs.images && !fs.Exists(maskPath) ==>
      r == Err(FileNotFound(maskPath))
    ensures fs.Exists(imagePath) && imagePath in fs.images && fs.Exists(maskPath) && maskPath !in fs.images ==>
      r == Err(Unreadable(maskPath))
    ensures r.Ok? <==>
      fs.Exists(imagePath) && imagePath in fs.images && fs.Exists(maskPath) && maskPath in fs.images
    ensures r.Ok? ==>
      var img := fs.images[imagePath];
      var msk := fs.images[maskPath];
      && r.value.image == [img.height, img.width, 3]
      && r.value.mask == [img.height, img.width]
      && (r.value.maskResized <==> (msk.height, msk.width) != (img.height, img.width))
  {
    if !fs.Exists(imagePath) then Err(FileNotFound(imagePath))
    else if imagePath !in fs.images then Err(Unreadable(imagePath))
    else
      var image := [fs.images[imagePath].height as nat, fs.images[imagePath].width as nat, 3];
      if !fs.Exists(maskPath) then Err(FileNotFound(maskPath))
      else if maskPath !in fs.images then Err(Unreadable(maskPath))
      else
        var mask := [fs.images[maskPath].height as nat, fs.images[maskPath].width as nat];
        if mask[..2] != image[..2] then Ok(Prepared(image, image[..2], true))
        else Ok(Prepared(image, mask, false))
  }

  /** A proper prefix of `d`: one of the shorter paths `os.makedirs` may
      create on the way to `d`. */
  predicate IsAncestor(a: string, d: string) {
    |a| < |d| && a == d[..|a|]
  }

  lemma AncestorTrans(a: string, b: string, c: string)
    requires IsAncestor(a, b) && IsAncestor(b, c)
    ensures IsAncestor(a, c)
  {
    assert c[..|b|][..|a|] == c[..|a|];
  }

  /** The parent `os.makedirs(name)` makes first when it is missing: the
      directory part of `os.path.split(name)`, looking through one trailing
      slash; empty when the split yields no parent and last component. */
  function ParentToMake(name: string): (r: string)
    ensures r != "" ==> IsAncestor(r, name)
  {
    var head := Paths.Dirname(name);
    var tail := Paths.Basename(name);
    if tail != "" then
      if head != "" then head else ""
    else
      var head2 := Paths.Dirname(head);
      assert head2 == name[..|head2|];
      if head2 != "" && Paths.Basename(head) != "" then head2 else ""
  }

  /** Every directory's parent, as `os.makedirs` would make it, exists. */
  predicate ParentsExist(fs: Fs) {
    forall x :: x in fs.dirs && ParentToMake(x) != "" ==> fs.Exists(ParentToMake(x))
  }

  /** `os.makedirs(name)` for a path that does not exist: a missing parent is
      made first (recursively), then `name` itself. */
  function MakeDirs(fs: Fs, name: string): (r: Fs)
    ensures r.files == fs.files && r.images == fs.images
    ensures fs.dirs <= r.dirs && name in r.dirs
    ensures forall x :: x in r.dirs && x !in fs.dirs ==> x == name || IsAncestor(x, name)
    ensures ParentToMake(name) != "" ==> r.Exists(ParentToMake(name))
    ensures ParentsExist(fs) ==> ParentsExist(r)
    decreases |name|
  {
    var parent := ParentToMake(name);
    if parent != "" && !fs.Exists(parent) then
      var fs1 := MakeDirs(fs, parent);
      assert forall x :: x in fs1.dirs && x !in fs.dirs ==> IsAncestor(x, name) by {
        forall x | x in fs1.dirs && x !in fs.dirs ensures IsAncestor(x, name) {
          if x != parent { AncestorTrans(x, parent, name); }
        }
      }
      fs1.(dirs := fs1.dirs + {name})
    else
      fs.(dirs := fs.dirs + {name})
  }

  /** `ensure_directory`: create the directory, and any missing parents,
      unless the path exists; `os.makedirs("")` raises `FileNotFoundError`. */
  function EnsureDirectory(fs: Fs, d: string): (r: Result<Fs, LoadError>)
    ensures r.Err? <==> !fs.Exists(d) && d == ""
    ensures fs.Exists(d) ==> r == Ok(fs)
    ensures r.Ok? ==> r.value.Exists(d) && r.value.files == fs.files && r.value.images == fs.images
    ensures r.Ok? ==> fs.dirs <= r.value.dirs
    ensures r.Ok? ==> forall x :: x in r.value.dirs && x !in fs.dirs ==> x == d || IsAncestor(x, d)
    ensures r.Ok? && !fs.Exists(d) && ParentToMake(d) != "" ==> r.value.Exists(ParentToMake(d))
    ensures r.Ok? && ParentsExist(fs) ==> ParentsExist(r.value)
  {
    if fs.Exists(d) then Ok(fs)
    else if d == "" then Err(FileNotFound(d))
    else Ok(MakeDirs(fs, d))
  }

  /** Creating `x/y` where neither exists creates both, and nothing else:
      `os.makedirs` supplies the missing parent. */
  lemma NestedDirectoryCreated(fs: Fs, x: string, y: string)
    requires x != "" && '/' !in x && y != "" && '/' !in y
    requires !fs.Exists(x) && !fs.Exists(x + "/" + y)
    ensures EnsureDirectory(fs, x + "/" + y) == Ok(fs.(dirs := fs.dirs + {x, x + "/" + y}))
  {
    var d := x + "/" + y;
    Paths.DirnameOfChild(x, y);
    Paths.DirnameEmptyIffNoSlash(x);
    assert Paths.Basename(x) == x by {
      Paths.BasenameOfJoin("", x);
    }
    assert ParentToMake(d) == x;
    assert ParentToMake(x) == "";
    var fs1 := MakeDirs(fs, x);
    assert fs1 == fs.(dirs := fs.dirs + {x});
    assert MakeDirs(fs, d) == fs1.(dirs := fs1.dirs + {d});
    assert fs1.dirs + {d} == fs.dirs + {x, d};
  }

  /** Creating `x/y/z` leaves the grandparent `x` and the parent `x/y` as
      directories too, whenever every directory already present has its
      parent and none of the three names is a file. */
  lemma GrandparentCreated(fs: Fs, x: string, y: string, z: string)
    requires x != "" && '/' !in x && y != "" && '/' !in y && z != "" && '/' !in z
    requires ParentsExist(fs)
    requires x !in fs.files && x + "/" + y !in fs.files && x + "/" + y + "/" + z !in fs.files
    ensures EnsureDirectory(fs, x + "/" + y + "/" + z).Ok?
    ensures var r := EnsureDirectory(fs, x + "/" + y + "/" + z).value;
      x in r.dirs && x + "/" + y in r.dirs && x + "/" + y + "/" + z in r.dirs
  {
    var xy := x + "/" + y;
    var d := xy + "/" + z;
    assert x + "/" + y + "/" + z == d;
    var r := EnsureDirectory(fs, d).value;
    Paths.DirnameOfChild(x, y);
    Paths.DirnameOfChild(xy, z);
    assert ParentToMake(d) == xy;
    assert ParentToMake(xy) == x;
    assert d in r.dirs;
    assert r.Exists(xy);
    assert xy in r.dirs;
    assert r.Exists(x);
  }
}

=== FILE: inpaint.dfy ===
/** The batch inpainting tool: inpaint one image/mask pair, or every image of
    a directory that has a same-named mask in a mask directory. Directory
    listings, the file system and the outcome of running the network and
    writing each result are parameters. */
module InpaintTool {
  import opened Common
  import Paths
  import opened Helper
  import InpaintApi

  // ---------------------------------------------------------------------
  // Finding images

  /** The suffixes globbed for, in glob order: each lower-case pattern is
      followed by its upper-cased form. */
  const GlobSuffixes: seq<string> := [".jpg", ".JPG", ".jpeg", ".JPEG", ".png", ".PNG", ".bmp", ".BMP"]

  /** The pattern `*<ext>` matches a directory entry: it ends with `ext`, and
      since `*` never matches a leading dot, it is not hidden. */
  predicate MatchesStar(name: string, ext: string) {
    name != "" && name[0] != '.' && |name| >= |ext| && name[|name| - |ext|..] == ext
  }

  /** The directory part glob keeps for `join(dir, "*" + ext)`: posix
      `dirname` of the pattern. */
  function GlobDir(dir: string, ext: string): string {
    Paths.Dirname(Paths.Join(dir, "*" + ext))
  }

  /** The elements of `xs` that `keep` accepts, each mapped through `f`, in
      order. */
  function MapFilter<T, U>(xs: seq<T>, keep: T -> bool, f: T -> U): (r: seq<U>)
    ensures |r| <= |xs|
    decreases |xs|
  {
    if |xs| == 0 then []
    else (if keep(xs[0]) then [f(xs[0])] else []) + MapFilter(xs[1..], keep, f)
  }

  lemma {:induction false} MapFilterMembers<T, U>(xs: seq<T>, keep: T -> bool, f: T -> U, y: U)
    ensures y in MapFilter(xs, keep, f) <==> exists x :: x in xs && keep(x) && y == f(x)
    decreases |xs|
  {
    if |xs| > 0 {
      var rest := xs[1..];
      var head := if keep(xs[0]) then [f(xs[0])] else [];
      assert MapFilter(xs, keep, f) == head + MapFilter(rest, keep, f);
      assert xs == [xs[0]] + rest;
      MapFilterMembers(rest, keep, f, y);
      if y in MapFilter(rest, keep, f) {
        var x :| x in rest && keep(x) && y == f(x);
        assert x in xs;
      }
      if exists x :: x in xs && keep(x) && y == f(x) {
        var x :| x in xs && keep(x) && y == f(x);
        if x != xs[0] {
          assert x in rest;
        }
      }
    }
  }

  /** The lists `g` gives for each element of `xs`, concatenated. */
  function ConcatMap<T, U>(xs: seq<T>, g: T -> seq<U>): seq<U>
    decreases |xs|
  {
    if |xs| == 0 then [] else g(xs[0]) + ConcatMap(xs[1..], g)
  }

  lemma {:induction false} ConcatMapMembers<T, U>(xs: seq<T>, g: T -> seq<U>, y: U)
    ensures y in ConcatMap(xs, g) <==> exists k :: 0 <= k < |xs| && y in g(xs[k])
    decreases |xs|
  {
    if |xs| > 0 {
      var rest := xs[1..];
      ConcatMapMembers(rest, g, y);
      if y in ConcatMap(rest, g) {
        var k :| 0 <= k < |rest| && y in g(rest[k]);
        assert rest[k] == xs[k + 1];
      }
      if exists k :: 0 <= k < |xs| && y in g(xs[k]) {
        var k :| 0 <= k < |xs| && y in g(xs[k]);
        if k > 0 {
          assert xs[k] == rest[k - 1];
        }
      }
    }
  }

  /** `glob.glob(join(dir, "*" + ext))` over the entries of `dir`, in listing
      order: each matching entry joined onto the pattern's directory part. */
  function Glob(dir: string, listing: seq<string>, ext: string): seq<string> {
    MapFilter(listing, n => MatchesStar(n, ext), n => Paths.Join(GlobDir(dir, ext), n))
  }

  /** A path is globbed exactly when it names a matching entry. */
  lemma GlobMembers(dir: string, listing: seq<string>, ext: string, p: string)
    ensures p in Glob(dir, listing, ext) <==>
      exists n :: n in listing && MatchesStar(n, ext) && p == Paths.Join(GlobDir(dir, ext), n)
  {
    MapFilterMembers(listing, n => MatchesStar(n, ext), n => Paths.Join(GlobDir(dir, ext), n), p);
  }

  /** The image paths `process_directory` works through: the glob for each
      suffix in turn, concatenated. */
  function Discover(dir: string, listing: seq<string>): seq<string> {
    ConcatMap(GlobSuffixes, ext => Glob(dir, listing, ext))
  }

  /** A path is discovered exactly when the glob for one of the suffixes
      returns it. */
  lemma DiscoverMembers(dir: string, listing: seq<string>, p: string)
    ensures p in Discover(dir, listing) <==>
      exists k :: 0 <= k < |GlobSuffixes| && p in Glob(dir, listing, GlobSuffixes[k])
  {
    ConcatMapMembers(GlobSuffixes, ext => Glob(dir, listing, ext), p);
  }

  // ---------------------------------------------------------------------
  // Finding masks

  /** The mask extensions tried, in order. */
  const MaskSuffixes: seq<string> := [".jpg", ".jpeg", ".png", ".bmp"]

  /** The mask paths tried for an image file name: its `splitext` stem with
      each mask extension, inside the mask directory. */
  function MaskCandidates(maskDir: string, filename: string): (r: seq<string>)
    ensures |r| == |MaskSuffixes|
    ensures '/' !in filename ==> forall i :: 0 <= i < |r| ==>
      Paths.Basename(r[i]) == Paths.SplitExt(filename).0 + MaskSuffixes[i]
  {
    var stem := Paths.SplitExt(filename).0;
    assert '/' !in filename ==> '/' !in stem by {
      if '/' !in filename {
        forall k | 0 <= k < |stem| ensures stem[k] != '/' {
          assert stem[k] == filename[k];
        }
      }
    }
    var r := seq(|MaskSuffixes|, i requires 0 <= i < |MaskSuffixes| => Paths.Join(maskDir, stem + MaskSuffixes[i]));
    assert '/' !in filename ==> forall i :: 0 <= i < |r| ==>
      Paths.Basename(r[i]) == stem + MaskSuffixes[i] by {
      if '/' !in filename {
        forall i | 0 <= i < |r| ensures Paths.Basename(r[i]) == stem + MaskSuffixes[i] {
          assert '/' !in MaskSuffixes[i];
          assert '/' !in stem + MaskSuffixes[i];
          Paths.BasenameOfJoin(maskDir, stem + MaskSuffixes[i]);
        }
      }
    }
    r
  }

  /** Each candidate is the mask directory with one more component, the
      image's stem plus that candidate's extension. */
  lemma MaskCandidatesInDir(maskDir: string, filename: string)
    requires '/' !in filename
    ensures var stem := Paths.SplitExt(filename).0;
      forall i :: 0 <= i < |MaskSuffixes| ==>
        Paths.Parts(MaskCandidates(maskDir, filename)[i]) == Paths.Parts(maskDir) + [stem + MaskSuffixes[i]]
  {
    var stem := Paths.SplitExt(filename).0;
    var cs := MaskCandidates(maskDir, filename);
    forall i | 0 <= i < |MaskSuffixes|
      ensures Paths.Parts(cs[i]) == Paths.Parts(maskDir) + [stem + MaskSuffixes[i]]
    {
      var name := stem + MaskSuffixes[i];
      assert cs[i] == Paths.Join(maskDir, name);
      assert '/' !in stem by {
        forall k | 0 <= k < |stem| ensures stem[k] != '/' {
          assert stem[k] == filename[k];
        }
      }
      assert '/' !in MaskSuffixes[i] && |MaskSuffixes[i]| >= 4;
      assert name != "." && Paths.ValidPart(name);
      Paths.PartsOfJoin(maskDir, name);
    }
  }

  /** The first candidate that exists, or `None`. */
  function FindMask(fs: Fs, cs: seq<string>): (r: Option<string>)
    ensures r.None? <==> forall i :: 0 <= i < |cs| ==> !fs.Exists(cs[i])
    ensures r.Some? ==> exists i :: (0 <= i < |cs| && cs[i] == r.value && fs.Exists(cs[i])
                                     && forall j :: 0 <= j < i ==> !fs.Exists(cs[j]))
    decreases |cs|
  {
    if |cs| == 0 then None
    else if fs.Exists(cs[0]) then Some(cs[0])
    else
      var r := FindMask(fs, cs[1..]);
      if r.Some? then
        var i :| 0 <= i < |cs[1..]| && cs[1..][i] == r.value && fs.Exists(cs[1..][i])
          && forall j :: 0 <= j < i ==> !fs.Exists(cs[1..][j]);
        assert cs[i + 1] == r.value;
        assert forall j :: 0 <= j < i + 1 ==> !fs.Exists(cs[j]) by {
          forall j | 0 <= j < i + 1 ensures !fs.Exists(cs[j]) {
            if j > 0 { assert cs[j] == cs[1..][j - 1]; }
          }
        }
        r
      else
        r
  }

  /** The file system only gained entries. */
  predicate Grows(before: Fs, after: Fs) {
    before.files <= after.files && before.dirs <= after.dirs
  }

  /** A mask that was found is still found once more files exist (possibly
      an earlier candidate). */
  lemma FindMaskMonotone(before: Fs, after: Fs, cs: seq<string>)
    requires Grows(before, after)
    requires FindMask(before, cs).Some?
    ensures FindMask(after, cs).Some?
  {
    var i :| 0 <= i < |cs| && before.Exists(cs[i]);
    assert after.Exists(cs[i]);
  }

  // ---------------------------------------------------------------------
  // One image

  /** `process_single_image`'s output path: the image's file name inside the
      output directory. */
  function OutputFor(outputDir: string, imagePath: string): (r: string)
    ensures Paths.Basename(r) == Paths.Basename(imagePath)
    ensures Paths.ValidPart(Paths.Basename(imagePath)) ==>
      Paths.Parts(r) == Paths.Parts(outputDir) + [Paths.Basename(imagePath)]
  {
    Paths.BasenameOfJoin(outputDir, Paths.Basename(imagePath));
    assert Paths.ValidPart(Paths.Basename(imagePath)) ==>
      Paths.Parts(Paths.Join(outputDir, Paths.Basename(imagePath))) == Paths.Parts(outputDir) + [Paths.Basename(imagePath)] by {
      if Paths.ValidPart(Paths.Basename(imagePath)) {
        Paths.PartsOfJoin(outputDir, Paths.Basename(imagePath));
      }
    }
    Paths.Join(outputDir, Paths.Basename(imagePath))
  }

  /** `process_single_image`: any exception while loading, inpainting or
      writing gives `False` and leaves the file system alone; a write that
      silently writes nothing still gives `True`. */
  function ProcessSingleImage(fs: Fs, imagePath: string, maskPath: string, outputDir: string,
                              eff: InpaintApi.Effects): (r: (bool, Fs))
    ensures r.0 <==>
      PrepareImageMask(fs, imagePath, maskPath).Ok? && eff.inferenceOk && !eff.write.WriteRaises?
    ensures !r.0 ==> r.1 == fs
    ensures Grows(fs, r.1) && r.1.dirs == fs.dirs
    ensures r.0 && eff.write.Written? ==>
      OutputFor(outputDir, imagePath) in r.1.files && OutputFor(outputDir, imagePath) in r.1.images
      && r.1.images[OutputFor(outputDir, imagePath)] == fs.images[imagePath]
    ensures !eff.write.Written? ==> r.1 == fs
  {
    match PrepareImageMask(fs, imagePath, maskPath)
    case Err(_) => (false, fs)
    case Ok(p) =>
      match InpaintApi.RunModel(p, eff.inferenceOk, fs.images[imagePath])
      case None => (false, fs)
      case Some(result) =>
        match InpaintApi.ImWrite(fs, OutputFor(outputDir, imagePath), result, eff.write)
        case None => (false, fs)
        case Some(fs') => (true, fs')
  }

  // ---------------------------------------------------------------------
  // A directory

  /** What happened to one discovered image. */
  datatype ImageOutcome = NoMask | Processed(mask: string, ok: bool)

  /** Images processed successfully. */
  function CountOk(os: seq<ImageOutcome>): (n: nat)
    ensures n <= |os|
    decreases |os|
  {
    if |os| == 0 then 0
    else CountOk(os[..|os| - 1]) + (if os[|os| - 1].Processed? && os[|os| - 1].ok then 1 else 0)
  }

  /** Images skipped for want of a mask. */
  function CountSkipped(os: seq<ImageOutcome>): nat
    decreases |os|
  {
    if |os| == 0 then 0
    else CountSkipped(os[..|os| - 1]) + (if os[|os| - 1].NoMask? then 1 else 0)
  }

  /** A skipped image is never counted as a success. */
  lemma {:induction false} CountsBounded(os: seq<ImageOutcome>)
    ensures CountOk(os) + CountSkipped(os) <= |os|
    decreases |os|
  {
    if |os| > 0 {
      CountsBounded(os[..|os| - 1]);
    }
  }

  /** One iteration of `process_directory`'s loop: look up the image's mask
      candidates in order; with none present the image is skipped, otherwise
      it is processed with the first one found. */
  function Step(now: Fs, imagePath: string, maskDir: string, outputDir: string,
                eff: InpaintApi.Effects): (r: (ImageOutcome, Fs))
    ensures r.0.NoMask? <==> FindMask(now, MaskCandidates(maskDir, Paths.Basename(imagePath))).None?
    ensures r.0.Processed? ==> r.0.mask == FindMask(now, MaskCandidates(maskDir, Paths.Basename(imagePath))).value
    ensures r.0.Processed? ==> r.0.mask in MaskCandidates(maskDir, Paths.Basename(imagePath))
    ensures r.0.Processed? ==> (r.0.ok, r.1) == ProcessSingleImage(now, imagePath, r.0.mask, outputDir, eff)
    ensures r.0.Processed? && r.0.ok ==> eff.inferenceOk && !eff.write.WriteRaises?
    ensures r.0.Processed? && r.0.ok && eff.write.Written? ==> OutputFor(outputDir, imagePath) in r.1.files
    ensures r.0.NoMask? ==> r.1 == now
    ensures Grows(now, r.1) && r.1.dirs == now.dirs
  {
    var candidates := MaskCandidates(maskDir, Paths.Basename(imagePath));
    match FindMask(now, candidates)
    case None => (NoMask, now)
    case Some(mask) =>
      var done := ProcessSingleImage(now, imagePath, mask, outputDir, eff);
      (Processed(mask, done.0), done.1)
  }

  /** What `process_directory` guarantees about one image's outcome, given
      the file system it started from and the one it ended with. */
  predicate Fits(start: Fs, end: Fs, maskDir: string, outputDir: string,
                 run: string -> InpaintApi.Effects, imagePath: string, o: ImageOutcome)
  {
    var candidates := MaskCandidates(maskDir, Paths.Basename(imagePath));
    && (o.Processed? ==> o.mask in candidates)
    && (FindMask(start, candidates).Some? ==> o.Processed?)
    && (o.Processed? && o.ok ==> run(imagePath).inferenceOk && !run(imagePath).write.WriteRaises?)
    && (o.Processed? && o.ok && run(imagePath).write.Written? ==> OutputFor(outputDir, imagePath) in end.files)
  }

  /** An outcome that fits stays fitting as the file system grows. */
  lemma FitsGrows(start: Fs, a: Fs, b: Fs, maskDir: string, outputDir: string,
                  run: string -> InpaintApi.Effects, imagePath: string, o: ImageOutcome)
    requires Fits(start, a, maskDir, outputDir, run, imagePath, o)
    requires Grows(a, b)
    ensures Fits(start, b, maskDir, outputDir, run, imagePath, o)
  {
  }

  /** A step taken on a file system that has grown since the start fits. */
  lemma StepFits(start: Fs, now: Fs, maskDir: string, outputDir: string,
                 run: string -> InpaintApi.Effects, imagePath: string)
    requires Grows(start, now)
    ensures var step := Step(now, imagePath, maskDir, outputDir, run(imagePath));
      Fits(start, step.1, maskDir, outputDir, run, imagePath, step.0)
  {
    var candidates := MaskCandidates(maskDir, Paths.Basename(imagePath));
    if FindMask(start, candidates).Some? {
      FindMaskMonotone(start, now, candidates);
    }
  }

  /** Appending a fitting outcome to fitting outcomes, as the file system
      grows, keeps them all fitting. */
  lemma FitsExtend(start: Fs, before: Fs, after: Fs, maskDir: string, outputDir: string,
                   run: string -> InpaintApi.Effects, paths: seq<string>, outcomes: seq<ImageOutcome>,
                   o: ImageOutcome)
    requires |outcomes| < |paths|
    requires forall k :: 0 <= k < |outcomes| ==> Fits(start, before, maskDir, outputDir, run, paths[k], outcomes[k])
    requires Grows(before, after)
    requires Fits(start, after, maskDir, outputDir, run, paths[|outcomes|], o)
    ensures forall k :: 0 <= k < |outcomes| + 1 ==>
      Fits(start, after, maskDir, outputDir, run, paths[k], (outcomes + [o])[k])
  {
    forall k | 0 <= k < |outcomes| + 1
      ensures Fits(start, after, maskDir, outputDir, run, paths[k], (outcomes + [o])[k])
    {
      if k < |outcomes| {
        FitsGrows(start, before, after, maskDir, outputDir, run, paths[k], outcomes[k]);
      }
    }
  }

  lemma CountOkExtend(os: seq<ImageOutcome>, o: ImageOutcome)
    ensures CountOk(os + [o]) == CountOk(os) + (if o.Processed? && o.ok then 1 else 0)
  {
    assert (os + [o])[..|os|] == os;
  }

  /** Runs `f` over `xs` in order, threading a state from each call to the
      next, and collects the outputs. */
  function Thread<S, A, O>(s: S, xs: seq<A>, f: (S, A) -> (O, S)): (r: (seq<O>, S))
    ensures |r.0| == |xs|
    decreases |xs|
  {
    if |xs| == 0 then ([], s)
    else
      var prev := Thread(s, xs[..|xs| - 1], f);
      var step := f(prev.1, xs[|xs| - 1]);
      (prev.0 + [step.0], step.1)
  }

  /** One more element extends the run by that element's call. */
  lemma ThreadAppend<S, A, O>(s: S, xs: seq<A>, i: nat, f: (S, A) -> (O, S))
    requires i < |xs|
    ensures var prev := Thread(s, xs[..i], f);
      Thread(s, xs[..i + 1], f) == (prev.0 + [f(prev.1, xs[i]).0], f(prev.1, xs[i]).1)
  {
    assert xs[..i + 1][..i] == xs[..i];
  }

  /** Output `k` is what `f` gives on element `k` and the state left by the
      elements before it. */
  lemma {:induction false} ThreadAt<S, A, O>(s: S, xs: seq<A>, k: nat, f: (S, A) -> (O, S))
    requires k < |xs|
    ensures Thread(s, xs, f).0[k] == f(Thread(s, xs[..k], f).1, xs[k]).0
    decreases |xs|
  {
    var n := |xs| - 1;
    var prev := Thread(s, xs[..n], f);
    ThreadAppend(s, xs, n, f);
    assert xs[..n + 1] == xs;
    if k < n {
      ThreadAt(s, xs[..n], k, f);
      assert xs[..n][..k] == xs[..k];
    }
  }

  /** The loop body of `process_directory` as a function of the file system
      it sees and the image path. */
  function StepOn(maskDir: string, outputDir: string, run: string -> InpaintApi.Effects): (Fs, string) -> (ImageOutcome, Fs) {
    (now: Fs, p: string) => Step(now, p, maskDir, outputDir, run(p))
  }

  /** The loop of `process_directory` over a run of images: each image's
      step sees the file system the earlier steps left behind. */
  function Outcomes(fs: Fs, paths: seq<string>, maskDir: string, outputDir: string,
                    run: string -> InpaintApi.Effects): (seq<ImageOutcome>, Fs)
  {
    Thread(fs, paths, StepOn(maskDir, outputDir, run))
  }

  /** The outcome of image `k` is its step on the file system left by the
      images before it: by `Step`'s contract, `NoMask` exactly when none of
      its candidates exists then, otherwise the first existing candidate
      with the result of `process_single_image`. */
  lemma OutcomeAt(fs: Fs, paths: seq<string>, k: nat, maskDir: string, outputDir: string,
                  run: string -> InpaintApi.Effects)
    requires k < |paths|
    ensures |Outcomes(fs, paths, maskDir, outputDir, run).0| == |paths|
    ensures Outcomes(fs, paths, maskDir, outputDir, run).0[k]
         == Step(Outcomes(fs, paths[..k], maskDir, outputDir, run).1, paths[k], maskDir, outputDir, run(paths[k])).0
  {
    var f := StepOn(maskDir, outputDir, run);
    ThreadAt(fs, paths, k, f);
    var now := Thread(fs, paths[..k], f).1;
    assert f(now, paths[k]) == Step(now, paths[k], maskDir, outputDir, run(paths[k]));
  }

  /** Every outcome of a run fits, judged against the file system at the
      start and the one at the end, and the run only ever adds files. */
  lemma {:induction false} OutcomesFit(fs: Fs, paths: seq<string>, maskDir: string, outputDir: string,
                                       run: string -> InpaintApi.Effects)
    ensures var o := Outcomes(fs, paths, maskDir, outputDir, run);
      && Grows(fs, o.1) && o.1.dirs == fs.dirs
      && forall k :: 0 <= k < |paths| ==> Fits(fs, o.1, maskDir, outputDir, run, paths[k], o.0[k])
    decreases |paths|
  {
    if |paths| > 0 {
      var n := |paths| - 1;
      var f := StepOn(maskDir, outputDir, run);
      var prev := Outcomes(fs, paths[..n], maskDir, outputDir, run);
      OutcomesFit(fs, paths[..n], maskDir, outputDir, run);
      var step := Step(prev.1, paths[n], maskDir, outputDir, run(paths[n]));
      ThreadAppend(fs, paths, n, f);
      assert f(prev.1, paths[n]) == step;
      assert paths[..n + 1] == paths;
      assert Outcomes(fs, paths, maskDir, outputDir, run) == (prev.0 + [step.0], step.1);
      StepFits(fs, prev.1, maskDir, outputDir, run, paths[n]);
      assert forall k :: 0 <= k < n ==> Fits(fs, prev.1, maskDir, outputDir, run, paths[k], prev.0[k]) by {
        forall k | 0 <= k < n ensures Fits(fs, prev.1, maskDir, outputDir, run, paths[k], prev.0[k]) {
          assert paths[..n][k] == paths[k];
        }
      }
      FitsExtend(fs, prev.1, step.1, maskDir, outputDir, run, paths, prev.0, step.0);
    }
  }

  /** The loop of `process_directory`: each image in turn, on the file
      system the earlier images left. */
  method RunImages(fs: Fs, paths: seq<string>, maskDir: string, outputDir: string,
                   run: string -> InpaintApi.Effects)
    returns (outcomes: seq<ImageOutcome>, fs': Fs)
    ensures (outcomes, fs') == Outcomes(fs, paths, maskDir, outputDir, run)
  {
    var f := StepOn(maskDir, outputDir, run);
    outcomes, fs' := [], fs;
    var i := 0;
    while i < |paths|
      invariant 0 <= i <= |paths|
      invariant (outcomes, fs') == Thread(fs, paths[..i], f)
    {
      var step := f(fs', paths[i]);
      ThreadAppend(fs, paths, i, f);
      outcomes, fs' := outcomes + [step.0], step.1;
      i := i + 1;
    }
    assert paths[..i] == paths;
  }

  /** The loop's `success_count += 1` on each image processed with success. */
  method CountSuccesses(outcomes: seq<ImageOutcome>) returns (n: nat)
    ensures n == CountOk(outcomes)
  {
    n := 0;
    var i := 0;
    while i < |outcomes|
      invariant 0 <= i <= |outcomes|
      invariant n == CountOk(outcomes[..i])
    {
      var o := outcomes[i];
      var gained := if o.Processed? && o.ok then 1 else 0;
      assert outcomes[..i + 1] == outcomes[..i] + [o];
      CountOkExtend(outcomes[..i], o);
      n := n + gained;
      i := i + 1;
    }
    assert outcomes[..i] == outcomes;
  }

  /** `process_directory`. `listing` is the image directory's entries and
      `run` says, per image path, whether the network and the writer raise.
      Every discovered image gets an outcome, in order, as `Outcomes`
      threads the file system through `Step`. Judged against the start: a
      mask present then is never missed. The success count is the number of
      images processed with success, so with the skipped images it never
      exceeds the number of images found. */
  method ProcessDirectory(fs: Fs, imageDir: string, listing: seq<string>, maskDir: string,
                          outputDir: string, run: string -> InpaintApi.Effects)
    returns (paths: seq<string>, outcomes: seq<ImageOutcome>, successCount: nat, fs': Fs)
    ensures paths == Discover(imageDir, listing)
    ensures (outcomes, fs') == Outcomes(fs, paths, maskDir, outputDir, run)
    ensures |outcomes| == |paths|
    ensures successCount == CountOk(outcomes)
    ensures successCount + CountSkipped(outcomes) <= |paths|
    ensures forall i :: 0 <= i < |paths| ==> Fits(fs, fs', maskDir, outputDir, run, paths[i], outcomes[i])
    ensures Grows(fs, fs') && fs'.dirs == fs.dirs
  {
    paths := Discover(imageDir, listing);
    outcomes, fs' := RunImages(fs, paths, maskDir, outputDir, run);
    successCount := CountSuccesses(outcomes);
    OutcomesFit(fs, paths, maskDir, outputDir, run);
    CountsBounded(outcomes);
  }

  // ---------------------------------------------------------------------
  // The tool

  /** How `main` dispatches on its two input paths. */
  datatype Mode = DirectoryMode | SingleMode | Mismatch

  /** Both directories: directory mode; otherwise both files: single mode;
      anything else is an error. */
  function Dispatch(fs: Fs, image: string, mask: string): (m: Mode)
    ensures m.DirectoryMode? <==> image in fs.dirs && mask in fs.dirs
    ensures m.SingleMode? ==> image in fs.files && mask in fs.files
    ensures m.Mismatch? <==>
      !(image in fs.dirs && mask in fs.dirs) && !(image in fs.files && mask in fs.files)
  {
    if image in fs.dirs && mask in fs.dirs then DirectoryMode
    else if image in fs.files && mask in fs.files then SingleMode
    else Mismatch
  }

  /** Creating a nested output directory creates its parent too, so a parent
      that did not exist before can then be dispatched on as an input
      directory. */
  lemma OutputParentBecomesInput(fs: Fs, x: string, y: string)
    requires x != "" && '/' !in x && y != "" && '/' !in y
    requires !fs.Exists(x) && !fs.Exists(x + "/" + y)
    ensures Dispatch(EnsureDirectory(fs, x + "/" + y).value, x, x) == DirectoryMode
  {
    NestedDirectoryCreated(fs, x, y);
  }

  /** The tool's command line, after argument parsing has supplied the defaults. */
  datatype Args = Args(image: string, mask: string, output: string, device: string)

  /** The machine: CUDA, whether the model loads, the file system, the image
      directory's entries, and the per-image effects. */
  datatype Machine = Machine(cudaAvailable: bool, modelLoads: bool, fs: Fs, listing: seq<string>,
                             run: string -> InpaintApi.Effects)

  /** `inpaint.main`. The exit status is 1 when the model fails to load or
      the output directory cannot be created (both uncaught) or the inputs
      are not both files or both directories; otherwise 0, even when the
      single image failed. */
  method RunTool(args: Args, m: Machine)
    returns (exitCode: int, device: string, mode: Option<Mode>, successCount: Option<nat>, fs': Fs)
    ensures device == InpaintApi.ResolveDevice(args.device, m.cudaAvailable)
    ensures exitCode == 0 || exitCode == 1
    ensures exitCode == 0 <==>
      && m.modelLoads
      && EnsureDirectory(m.fs, args.output).Ok?
      && !Dispatch(EnsureDirectory(m.fs, args.output).value, args.image, args.mask).Mismatch?
    ensures mode.Some? <==> m.modelLoads && EnsureDirectory(m.fs, args.output).Ok?
    ensures mode.Some? ==> mode.value == Dispatch(EnsureDirectory(m.fs, args.output).value, args.image, args.mask)
    ensures successCount.Some? <==> mode == Some(DirectoryMode)
    ensures successCount.Some? ==> successCount.value <= |Discover(args.image, m.listing)|
    ensures exitCode == 0 ==> fs'.Exists(args.output)
    ensures Grows(m.fs, fs')
    ensures mode.None? ==> fs' == m.fs
    ensures mode == Some(Mismatch) ==> fs' == EnsureDirectory(m.fs, args.output).value
    ensures mode == Some(DirectoryMode) ==>
      var o := Outcomes(EnsureDirectory(m.fs, args.output).value, Discover(args.image, m.listing),
                        args.mask, args.output, m.run);
      successCount == Some(CountOk(o.0)) && fs' == o.1
    ensures mode == Some(SingleMode) ==>
      fs' == ProcessSingleImage(EnsureDirectory(m.fs, args.output).value, args.image, args.mask,
                                args.output, m.run(args.image)).1
  {
    device := InpaintApi.ResolveDevice(args.device, m.cudaAvailable);
    mode := None;
    successCount := None;
    fs' := m.fs;
    if !m.modelLoads {
      return 1, device, mode, successCount, fs';
    }
    var made := EnsureDirectory(m.fs, args.output);
    if made.Err? {
      return 1, device, mode, successCount, fs';
    }
    fs' := made.value;
    var d := Dispatch(fs', args.image, args.mask);
    mode := Some(d);
    match d
    case DirectoryMode =>
      var paths, outcomes, count, after := ProcessDirectory(fs', args.image, m.listing, args.mask, args.output, m.run);
      successCount := Some(count);
      fs' := after;
      exitCode := 0;
    case SingleMode =>
      var step := ProcessSingleImage(fs', args.image, args.mask, args.output, m.run(args.image));
      fs' := step.1;
      exitCode := 0;
    case Mismatch =>
      exitCode := 1;
  }
}

=== FILE: inpaint_api.dfy ===
/** The single-image inpainting script the HTTP back-end launches: pick the
    device, default the output file's suffix, load the pair, inpaint, create
    the output's directory and write the result. Everything the script
    observes outside itself (CUDA, the file system, whether the network or
    the writer raises) is a parameter. */
module InpaintApi {
  import opened Common
  import Paths
  import opened Helper
  import LaMa

  // ---------------------------------------------------------------------
  // Device

  /** A request for CUDA on a machine without it falls back to the CPU; any
      other request is kept. */
  function ResolveDevice(requested: string, cudaAvailable: bool): (d: string)
    ensures d == "cuda" ==> cudaAvailable
    ensures d != requested <==> requested == "cuda" && !cudaAvailable
    ensures d != requested ==> d == "cpu"
  {
    if requested == "cuda" && !cudaAvailable then "cpu" else requested
  }

  /** Resolving a resolved device changes nothing. */
  lemma ResolveDeviceIdempotent(requested: string, cudaAvailable: bool)
    ensures ResolveDevice(ResolveDevice(requested, cudaAvailable), cudaAvailable)
         == ResolveDevice(requested, cudaAvailable)
  {
  }

  // ---------------------------------------------------------------------
  // Output path

  const DefaultSuffix: string := ".png"

  /** A reported suffix lower-cased, or `.png` in place of an empty one. */
  function LowerOrDefault(suffix: string): (s: string)
    requires suffix == "" || Paths.ProperSuffix(suffix)
    ensures Paths.ProperSuffix(s)
    ensures suffix != "" ==> s == Lower(suffix) && |s| == |suffix|
    ensures suffix == "" ==> s == DefaultSuffix
  {
    if suffix != "" then
      Paths.LowerKeepsProperSuffix(suffix);
      Lower(suffix)
    else
      DefaultSuffix
  }

  /** The suffix given to an output path that has none: the input image's
      suffix lower-cased, or `.png` when the input has none either. */
  function DefaultedSuffix(image: string): (s: string)
    ensures Paths.ProperSuffix(s)
    ensures Paths.Suffix(image) != "" ==> s == Lower(Paths.Suffix(image))
    ensures Paths.Suffix(image) == "" ==> s == DefaultSuffix
  {
    SuffixEmptyOrProper(image);
    LowerOrDefault(Paths.Suffix(image))
  }

  /** Defaulting a defaulted suffix changes nothing: it is already
      lower-case and non-empty. */
  lemma LowerOrDefaultIdempotent(suffix: string)
    requires suffix == "" || Paths.ProperSuffix(suffix)
    ensures LowerOrDefault(LowerOrDefault(suffix)) == LowerOrDefault(suffix)
  {
    var s := LowerOrDefault(suffix);
    assert Lower(s) == s by {
      forall i | 0 <= i < |s| ensures Lower(s)[i] == s[i] {
        if suffix != "" {
          assert s[i] == LowerChar(suffix[i]);
        }
      }
    }
  }

  lemma SuffixEmptyOrProper(image: string)
    ensures Paths.Suffix(image) == "" || Paths.ProperSuffix(Paths.Suffix(image))
  {
    if Paths.Suffix(image) != "" {
      Paths.SuffixIsProper(image);
    }
  }

  /** The output path the script writes to: the requested path itself when it
      has a suffix, otherwise `with_suffix` of the defaulted suffix. `None`
      stands for the `ValueError` `with_suffix` raises on a path with an
      empty name (such as `""` or `/`). */
  function OutputPath(output: string, image: string): (r: Option<string>)
    ensures Paths.Suffix(output) != "" ==> r == Some(output)
    ensures r.None? <==> Paths.Suffix(output) == "" && Paths.Name(output) == ""
    ensures r.Some? ==> Paths.Suffix(r.value) != ""
    ensures r.Some? && Paths.Suffix(output) == "" ==> Paths.Suffix(r.value) == DefaultedSuffix(image)
    ensures r.Some? && Paths.Suffix(output) == "" && Paths.Suffix(image) == "" ==>
      Paths.Suffix(r.value) == DefaultSuffix
    ensures r.Some? && Paths.Suffix(output) == "" && Paths.Suffix(image) != "" ==>
      Paths.Suffix(r.value) == Lower(Paths.Suffix(image))
    ensures r.Some? ==> |Paths.Parts(r.value)| == |Paths.Parts(output)|
    ensures r.Some? && Paths.Suffix(output) == "" ==>
      var ps := Paths.Parts(output);
      |ps| > 0 && Paths.Parts(r.value) == ps[..|ps| - 1] + [Paths.Name(output) + DefaultedSuffix(image)]
  {
    if Paths.Suffix(output) != "" then Some(output)
    else
      var ext := DefaultedSuffix(image);
      var p := Paths.WithSuffix(output, ext);
      if p.Some? then
        Paths.WithSuffixSetsSuffix(output, ext);
        Paths.WithSuffixOfBareName(output, ext);
        p
      else
        p
  }

  /** Defaulting the suffix is idempotent: a path the script has settled on
      is settled on again. */
  lemma {:induction false} OutputPathIdempotent(output: string, image: string)
    requires OutputPath(output, image).Some?
    ensures OutputPath(OutputPath(output, image).value, image) == OutputPath(output, image)
  {
  }

  // ---------------------------------------------------------------------
  // Effects of OpenCV and the network

  /** How `cv2.imwrite` ends: the file is written, nothing is written (it
      returns `False`), or it raises. */
  datatype WriteOutcome = Written | NotWritten | WriteRaises

  /** Whether running the network raises, and how the write ends. */
  datatype Effects = Effects(inferenceOk: bool, write: WriteOutcome)

  /** `cv2.imwrite(path, result)` for a result of the given size; `None` when
      it raises. A written file decodes back to the result's size. */
  function ImWrite(fs: Fs, path: string, size: Raster, w: WriteOutcome): (r: Option<Fs>)
    ensures r.None? <==> w.WriteRaises?
    ensures w.NotWritten? ==> r == Some(fs)
    ensures w.Written? ==>
      && r.value.dirs == fs.dirs
      && r.value.files == fs.files + {path}
      && r.value.images == fs.images[path := size]
  {
    match w
    case Written => Some(Fs(fs.files + {path}, fs.dirs, fs.images[path := size]))
    case NotWritten => Some(fs)
    case WriteRaises => None
  }

  /** `model.inpaint` on a prepared pair: the result's height and width,
      `None` when the network raises. */
  function RunModel(p: Prepared, inferenceOk: bool, image: Raster): (r: Option<Raster>)
    requires p.image == [image.height, image.width, 3] && p.mask == [image.height, image.width]
    ensures r.Some? <==> inferenceOk
    ensures r.Some? ==> r.value == image
  {
    if !inferenceOk then None
    else
      var out := LaMa.Inpaint(p.image, p.mask);
      Some(Raster(out[0], out[1]))
  }

  // ---------------------------------------------------------------------
  // The script

  /** The script's command line. */
  datatype Args = Args(image: string, mask: string, output: string, device: string)

  /** The machine the script runs on. */
  datatype Machine = Machine(cudaAvailable: bool, modelLoads: bool, fs: Fs, effects: Effects)

  /** The output step `if output_dir: ensure_directory(output_dir)`: when the
      output path has a directory part that does not exist, it and its
      missing parents are created; otherwise nothing changes. */
  function EnsureOutputDir(fs: Fs, out: string): (r: Fs)
    ensures r.files == fs.files && r.images == fs.images && fs.dirs <= r.dirs
    ensures var dir := Paths.Dirname(out);
      && (dir == "" || fs.Exists(dir) ==> r == fs)
      && (dir != "" ==> r.Exists(dir))
      && forall x :: x in r.dirs && x !in fs.dirs ==> x == dir || IsAncestor(x, dir)
  {
    var dir := Paths.Dirname(out);
    if dir != "" then EnsureDirectory(fs, dir).value else fs
  }

  /** The exit status, the device used, the final output path (when it got
      that far) and the file system afterwards. */
  datatype Run = Run(exitCode: int, device: string, output: Option<string>, fs: Fs)

  /** Every step inside the script's `try` block succeeds. */
  predicate Succeeds(args: Args, m: Machine) {
    && OutputPath(args.output, args.image).Some?
    && PrepareImageMask(m.fs, args.image, args.mask).Ok?
    && m.effects.inferenceOk
    && !m.effects.write.WriteRaises?
  }

  /** `inpaint_api.main`. The model is built before the `try` block, so a
      failure there is an uncaught exception, which also exits with status
      1. The output's directory is created only when `dirname` is
      non-empty, and a write that silently produces nothing still exits
      with 0. */
  function RunScript(args: Args, m: Machine): (r: Run)
    ensures r.device == ResolveDevice(args.device, m.cudaAvailable)
    ensures r.exitCode == 0 || r.exitCode == 1
    ensures r.exitCode == 0 <==> m.modelLoads && Succeeds(args, m)
    ensures r.exitCode == 0 ==> r.output == OutputPath(args.output, args.image)
    ensures r.exitCode == 0 && m.effects.write.Written? ==>
      var out := r.output.value;
      var img := m.fs.images[args.image];
      && out in r.fs.files && Paths.Suffix(out) != ""
      && out in r.fs.images && r.fs.images[out] == img
    ensures r.exitCode == 0 ==> r.fs.dirs == EnsureOutputDir(m.fs, r.output.value).dirs
    ensures r.exitCode == 1 ==> r.fs.files == m.fs.files && r.fs.images == m.fs.images
    ensures r.fs.files >= m.fs.files
  {
    var device := ResolveDevice(args.device, m.cudaAvailable);
    if !m.modelLoads then Run(1, device, None, m.fs)
    else
      match OutputPath(args.output, args.image)
      case None => Run(1, device, None, m.fs)
      case Some(out) =>
        match PrepareImageMask(m.fs, args.image, args.mask)
        case Err(_) => Run(1, device, Some(out), m.fs)
        case Ok(p) =>
          var size := m.fs.images[args.image];
          match RunModel(p, m.effects.inferenceOk, size)
          case None => Run(1, device, Some(out), m.fs)
          case Some(result) =>
            var fs1 := EnsureOutputDir(m.fs, out);
            match ImWrite(fs1, out, result, m.effects.write)
            case None => Run(1, device, Some(out), fs1)
            case Some(fs2) => Run(0, device, Some(out), fs2)
  }

  /** A successful run leaves the directories alone when the settled output
      path has no slash; when it has one and its directory part is missing,
      that directory now exists and every directory added is it or one of
      its ancestors. */
  lemma {:induction false} OutputDirCreated(args: Args, m: Machine)
    requires RunScript(args, m).exitCode == 0
    ensures var r := RunScript(args, m);
      var out := r.output.value;
      var dir := Paths.Dirname(out);
      && ('/' !in out ==> r.fs.dirs == m.fs.dirs)
      && ('/' in out && !m.fs.Exists(dir) ==>
            && dir in r.fs.dirs
            && forall x :: x in r.fs.dirs && x !in m.fs.dirs ==> x == dir || IsAncestor(x, dir))
  {
    var out := RunScript(args, m).output.value;
    Paths.DirnameEmptyIffNoSlash(out);
  }
}

=== FILE: masks.dfy ===
/** Pixel-level mask binarisation. The HTTP endpoint thresholds an uploaded
    8-bit mask at 127 into {0, 255} before handing it to the inpainting
    script, and the model turns whatever it receives into {0, 1} with
    `mask > 0`. A mask is a grid of rows of pixel values. */
module Masks {

  type Grid = seq<seq<int>>

  predicate SameDims(a: Grid, b: Grid) {
    |a| == |b| && forall i :: 0 <= i < |a| ==> |a[i]| == |b[i]|
  }

  /** Every pixel is 0 or `high`. */
  predicate IsBinary(g: Grid, high: int) {
    forall i, j :: 0 <= i < |g| && 0 <= j < |g[i]| ==> g[i][j] == 0 || g[i][j] == high
  }

  /** Every pixel is an 8-bit value. */
  predicate IsUint8(g: Grid) {
    forall i, j :: 0 <= i < |g| && 0 <= j < |g[i]| ==> 0 <= g[i][j] <= 255
  }

  /** `cv2.threshold(g, thresh, maxval, cv2.THRESH_BINARY)`: pixels strictly
      above `thresh` become `maxval`, all others become 0. */
  function Threshold(g: Grid, thresh: int, maxval: int): (r: Grid)
    ensures SameDims(r, g)
    ensures IsBinary(r, maxval)
    ensures forall i, j :: 0 <= i < |g| && 0 <= j < |g[i]| ==>
      (g[i][j] > thresh ==> r[i][j] == maxval) && (g[i][j] <= thresh ==> r[i][j] == 0)
  {
    seq(|g|, i requires 0 <= i < |g| =>
      seq(|g[i]|, j requires 0 <= j < |g[i]| => if g[i][j] > thresh then maxval else 0))
  }

  /** The endpoint's mask rule: threshold 127, white 255. */
  function BinaryMask(g: Grid): Grid {
    Threshold(g, 127, 255)
  }

  /** The endpoint's mask is an 8-bit binary image: a pixel is white exactly
      when the uploaded pixel was brighter than 127. */
  lemma BinaryMaskSpec(g: Grid)
    ensures SameDims(BinaryMask(g), g)
    ensures IsBinary(BinaryMask(g), 255) && IsUint8(BinaryMask(g))
    ensures forall i, j :: 0 <= i < |g| && 0 <= j < |g[i]| ==>
      (BinaryMask(g)[i][j] == 255 <==> g[i][j] > 127)
  {
  }

  /** Thresholding an already thresholded mask changes nothing. */
  lemma BinaryMaskIdempotent(g: Grid)
    ensures BinaryMask(BinaryMask(g)) == BinaryMask(g)
  {
    var m := BinaryMask(g);
    var mm := BinaryMask(m);
    assert |mm| == |m|;
    forall i | 0 <= i < |m| ensures mm[i] == m[i] {
      assert |mm[i]| == |m[i]|;
    }
  }

  /** The model's `(mask > 0) * 1`: 1 where the pixel is positive, else 0. */
  function Binarize(g: Grid): (r: Grid)
    ensures SameDims(r, g)
    ensures IsBinary(r, 1)
    ensures forall i, j :: 0 <= i < |g| && 0 <= j < |g[i]| ==> (r[i][j] == 1 <==> g[i][j] > 0)
  {
    Threshold(g, 0, 1)
  }

  /** End to end, the network marks for inpainting exactly the pixels of the
      uploaded mask that were brighter than 127 (before any resizing or
      padding, which only add or move pixels). The grid is the single-channel
      upload, or the channel mean of an RGB one; masks with two or four
      channels are thresholded per channel and are not covered. */
  lemma {:induction false} UploadedMaskReachesModel(g: Grid)
    ensures SameDims(Binarize(BinaryMask(g)), g)
    ensures forall i, j :: 0 <= i < |g| && 0 <= j < |g[i]| ==>
      (Binarize(BinaryMask(g))[i][j] == 1 <==> g[i][j] > 127)
  {
    var m := BinaryMask(g);
    var b := Binarize(m);
    forall i, j | 0 <= i < |g| && 0 <= j < |g[i]|
      ensures b[i][j] == 1 <==> g[i][j] > 127
    {
      assert |m[i]| == |g[i]|;
    }
  }
}

=== FILE: model.dfy ===
/** The Anime-LaMa wrapper's shape pipeline: align the mask with the image,
    pad both to a multiple of 8, convert to channel-first batches, run the
    network, and crop the result back to the input's height and width. The
    network itself is represented only by the shape it documents. */
module LaMa {
  import opened Common
  import opened Helper

  /** `AnimeLaMa.pad_mod` */
  const PadMod: int := 8

  /** An RGB image as `prepare_image_mask` hands it over: (H, W, 3). */
  predicate IsRgbImage(s: Shape) {
    |s| == 3 && s[0] > 0 && s[1] > 0 && s[2] == 3
  }

  /** A single-channel mask: (H, W). */
  predicate IsGrayMask(s: Shape) {
    |s| == 2 && s[0] > 0 && s[1] > 0
  }

  /** The TorchScript network as far as shapes go: an image batch
      (1, C, H, W) and a mask batch come back as an RGB batch (1, 3, H, W). */
  function Network(image: Shape, mask: Shape): (r: Shape)
    requires |image| == 4
    ensures |r| == 4 && r[2..] == image[2..]
  {
    [1, 3, image[2], image[3]]
  }

  /** `torch.from_numpy(x).unsqueeze(0)`: prepend a batch axis. */
  function Unsqueeze(s: Shape): Shape {
    [1] + s
  }

  /** `cv2.resize(a, (w, h))`: new height and width, channels kept. */
  function ResizeTo(s: Shape, h: nat, w: nat): Shape
    requires |s| >= 2
  {
    [h, w] + s[2..]
  }

  /** `a[:h, :w]`: slicing never reaches past the array's own extent. */
  function CropTo(s: Shape, h: nat, w: nat): Shape
    requires |s| >= 2
  {
    [Min(s[0], h), Min(s[1], w)] + s[2..]
  }

  /** What `forward` feeds to the network and what it returns. */
  datatype Trace = Trace(imageTensor: Shape, maskTensor: Shape, output: Shape)

  /** `AnimeLaMa.forward`. The tensors fed to the network are padded to
      multiples of `PadMod` (by less than `PadMod` rows and columns), the mask
      tensor matches the image tensor's height and width, and the output is
      cropped back to exactly the input image's (H, W, 3). */
  function Forward(image: Shape, mask: Shape): (t: Trace)
    requires IsRgbImage(image) && IsGrayMask(mask)
    ensures |t.imageTensor| == 4 && t.imageTensor[..2] == [1, 3]
    ensures t.imageTensor[2] % PadMod == 0 && t.imageTensor[3] % PadMod == 0
    ensures image[0] <= t.imageTensor[2] < image[0] + PadMod
    ensures image[1] <= t.imageTensor[3] < image[1] + PadMod
    ensures t.maskTensor == [1, 1, t.imageTensor[2], t.imageTensor[3]]
    ensures t.output == image
  {
    var aligned := if mask[..2] != image[..2] then ResizeTo(mask, image[0], image[1]) else mask;
    assert aligned == image[..2];
    var h, w := image[0], image[1];
    PadToModuloDivisible(image, PadMod);
    PadToModuloDivisible(aligned, PadMod);
    var paddedImage := PadToModulo(image, PadMod).value;
    var paddedMask := PadToModulo(aligned, PadMod).value;
    // `(mask > 0) * 1` changes values only, never the shape
    var imageTensor := Unsqueeze(NormImg(paddedImage).value);
    var maskTensor := Unsqueeze(NormImg(paddedMask).value);
    var out := Network(imageTensor, maskTensor);
    // `[0].permute(1, 2, 0)` back to (H, W, C); the colour conversion keeps it
    var result := [out[2], out[3], out[1]];
    Trace(imageTensor, maskTensor, CropTo(result, h, w))
  }

  /** A pair `prepare_image_mask` hands over meets `forward`'s expectations:
      an RGB image and a grayscale mask of the same height and width, so
      `forward`'s own resize never fires and the result has the image's
      size. */
  lemma PreparedFitsForward(fs: Fs, imagePath: string, maskPath: string)
    requires PrepareImageMask(fs, imagePath, maskPath).Ok?
    ensures var p := PrepareImageMask(fs, imagePath, maskPath).value;
      && IsRgbImage(p.image) && IsGrayMask(p.mask)
      && p.mask[..2] == p.image[..2]
      && Inpaint(p.image, p.mask) == p.image
  {
  }

  /** `AnimeLaMa.inpaint` delegates to `forward`: the result has the input
      image's height, width and three channels. */
  function Inpaint(image: Shape, mask: Shape): (r: Shape)
    requires IsRgbImage(image) && IsGrayMask(mask)
    ensures r == image
  {
    Forward(image, mask).output
  }
}

=== FILE: ocr.dfy ===
/** The manga OCR wrapper: a lazily loaded model whose load is attempted at
    most once, an input validator, result filtering, and the process-wide
    singleton. The pretrained model, feature extractor and tokenizer are
    represented by the outcomes they produce (`LoadOutcome`, `Recognition`). */
module MangaOcr {
  import opened Common

  const DefaultModelName: string := "kha-white/manga-ocr-base"

  /** Images narrower or shorter than this are rejected. */
  const MinSide: nat := 10

  // ---------------------------------------------------------------------
  // Loading

  /** How an attempt to load the model components ends. The three
      `from_pretrained` failures are re-raised with a fixed prefix; a failure
      while moving the model to the device propagates its own message. */
  datatype LoadOutcome =
    | Loaded
    | ModelFails(detail: string)
    | ExtractorFails(detail: string)
    | TokenizerFails(detail: string)
    | MoveFails(message: string)

  const LoadPrefix: string := "Failed to load "

  /** The component a `from_pretrained` failure names. */
  function Component(o: LoadOutcome): (name: string)
    requires o.ModelFails? || o.ExtractorFails? || o.TokenizerFails?
    ensures |name| >= 5
  {
    match o
    case ModelFails(_) => "VisionEncoderDecoderModel"
    case ExtractorFails(_) => "AutoFeatureExtractor"
    case TokenizerFails(_) => "AutoTokenizer"
  }

  /** `str(e)` of the exception a failed load raises: a `from_pretrained`
      failure names the component and ends with the underlying message; a
      failed move to the device passes its message through unchanged. */
  function FailureMessage(o: LoadOutcome): (r: string)
    requires !o.Loaded?
    ensures o.MoveFails? ==> r == o.message
    ensures !o.MoveFails? ==>
      && |r| > |LoadPrefix| + |o.detail| && r[..|LoadPrefix|] == LoadPrefix
      && r[|r| - |o.detail|..] == o.detail
  {
    if o.MoveFails? then o.message
    else
      var head := LoadPrefix + Component(o) + ": ";
      assert (head + o.detail)[..|LoadPrefix|] == LoadPrefix;
      assert (head + o.detail)[|head|..] == o.detail;
      head + o.detail
  }

  /** The message of a `from_pretrained` failure tells which component failed
      and with what underlying message. */
  lemma FailureMessageInjective(o1: LoadOutcome, o2: LoadOutcome)
    requires !o1.Loaded? && !o1.MoveFails? && !o2.Loaded? && !o2.MoveFails?
    requires FailureMessage(o1) == FailureMessage(o2)
    ensures o1 == o2
  {
    var m := FailureMessage(o1);
    var n := |LoadPrefix|;
    var c1, c2 := Component(o1), Component(o2);
    assert m == LoadPrefix + c1 + ": " + o1.detail;
    assert m == LoadPrefix + c2 + ": " + o2.detail;
    // the component names differ at their first or fifth letter
    assert m[n] == c1[0] && m[n + 4] == c1[4];
    assert m[n] == c2[0] && m[n + 4] == c2[4];
    assert c1 == c2;
    var k := |m| - |o1.detail|;
    assert o1.detail == m[k..];
    assert o2.detail == m[k..];
  }

  /** The mutable attributes of a `MangaOCR` instance that govern loading. */
  datatype OcrState = OcrState(modelName: string, loaded: bool, loadError: Option<string>)

  /** A freshly constructed instance: nothing loaded, no error recorded. */
  function Init(modelName: string): (st: OcrState)
    ensures st.modelName == modelName && !st.loaded && st.loadError.None?
  {
    OcrState(modelName, false, None)
  }

  /** Python truthiness of `model_load_error`: set and non-empty. */
  predicate ErrorTruthy(st: OcrState) {
    st.loadError.Some? && st.loadError.value != ""
  }

  /** The state after a load attempt, and whether the attempt raised. */
  datatype LoadStep = LoadStep(state: OcrState, raised: bool)

  /** `_load_model` as written: a no-op when the model is loaded or the
      recorded error is truthy; otherwise a success marks the model loaded and
      a failure records `str(e)` and re-raises. */
  function LoadModel(st: OcrState, o: LoadOutcome): (r: LoadStep)
    ensures st.loaded || ErrorTruthy(st) ==> r == LoadStep(st, false)
    ensures !st.loaded && !ErrorTruthy(st) ==>
      && (r.raised <==> !o.Loaded?)
      && (r.state.loaded <==> o.Loaded?)
      && (r.raised ==> r.state.loadError == Some(FailureMessage(o)))
    ensures r.state.modelName == st.modelName
    ensures !(st.loaded && ErrorTruthy(st)) ==> !(r.state.loaded && ErrorTruthy(r.state))
  {
    if st.loaded || ErrorTruthy(st) then LoadStep(st, false)
    else if o.Loaded? then LoadStep(st.(loaded := true), false)
    else LoadStep(st.(loadError := Some(FailureMessage(o))), true)
  }

  /** A failed load whose exception message is empty is attempted again, and
      after the second attempt succeeds the instance holds both the loaded
      flag and a recorded error. */
  lemma SilentFailureIsRetried()
    ensures var failed := LoadModel(Init(DefaultModelName), MoveFails(""));
      && failed.raised && failed.state.loadError == Some("")
      && LoadModel(failed.state, Loaded).state.loaded
      && LoadModel(failed.state, Loaded).state.loadError.Some?
  {
  }

  /** Recorded error and loaded flag are never both set. */
  predicate LoadInv(st: OcrState) {
    !(st.loaded && st.loadError.Some?)
  }

  /** `_load_model` with the guard the code evidently intends: any recorded
      error, empty message or not, ends all further attempts. */
  function LoadModelOnce(st: OcrState, o: LoadOutcome): (r: LoadStep)
    ensures st.loaded || st.loadError.Some? ==> r == LoadStep(st, false)
    ensures !st.loaded && st.loadError.None? ==>
      && (r.raised <==> !o.Loaded?)
      && (r.state.loaded <==> o.Loaded?)
      && (r.raised ==> r.state.loadError == Some(FailureMessage(o)))
    ensures r.raised ==> r.state.loadError.Some?
    ensures r.state.modelName == st.modelName
    ensures LoadInv(st) ==> LoadInv(r.state)
  {
    if st.loaded || st.loadError.Some? then LoadStep(st, false)
    else if o.Loaded? then LoadStep(st.(loaded := true), false)
    else LoadStep(st.(loadError := Some(FailureMessage(o))), true)
  }

  // ---------------------------------------------------------------------
  // Inputs and validation

  /** An image after `.convert("RGB")`: its size, and whether its mean
      luminance exceeds 240 (the floating-point test is not modelled). */
  datatype Image = Image(width: nat, height: nat, mostlyWhite: bool)

  /** What `__call__` may be given. `decoded` is the RGB image the branch
      for that input type produces, `None` when opening or converting raises
      (PIL cannot read the file or bytes, `Image.fromarray` rejects the
      array, or `convert("RGB")` fails); the exception is caught by the
      call's outer handler. */
  datatype Input =
    | PathInput(path: string, decoded: Option<Image>)
    | PilInput(decoded: Option<Image>)
    | ArrayInput(decoded: Option<Image>)
    | BytesInput(decoded: Option<Image>)
    | OtherInput

  /** The image `__call__` goes on to validate, or `None` when it returns
      early: an unsupported type, a missing path, or an input that does not
      open or convert. */
  function OpenInput(input: Input, existing: set<string>): (r: Option<Image>)
    ensures r.Some? <==>
      && !input.OtherInput?
      && (input.PathInput? ==> input.path in existing)
      && input.decoded.Some?
    ensures r.Some? ==> r == input.decoded
  {
    match input
    case PathInput(p, d) => if p in existing then d else None
    case PilInput(d) => d
    case ArrayInput(d) => d
    case BytesInput(d) => d
    case OtherInput => None
  }

  /** Reasons `validate_image` gives. */
  datatype Validation = Valid | ImageIsNone | TooSmall(width: nat, height: nat) | MostlyWhite

  /** `validate_image`: `None`, anything under `MinSide` pixels on a side, and
      mostly white images are rejected, in that order. */
  function ValidateImage(image: Option<Image>): (v: Validation)
    ensures v.Valid? <==>
      image.Some? && image.value.width >= MinSide && image.value.height >= MinSide && !image.value.mostlyWhite
    ensures image.None? ==> v == ImageIsNone
    ensures image.Some? && (image.value.width < MinSide || image.value.height < MinSide) ==>
      v == TooSmall(image.value.width, image.value.height)
  {
    match image
    case None => ImageIsNone
    case Some(img) =>
      if img.width < MinSide || img.height < MinSide then TooSmall(img.width, img.height)
      else if img.mostlyWhite then MostlyWhite
      else Valid
  }

  // ---------------------------------------------------------------------
  // Recognition

  /** How feature extraction, generation and decoding end. */
  datatype Recognition = ExtractorFails | GenerateFails | DecodeFails | Decoded(text: string)

  /** The text `__call__` returns for a recognition: nothing when a stage
      raises or the decoded text is empty or whitespace. */
  function RecognisedText(rec: Recognition): (r: Option<string>)
    ensures r.Some? <==> rec.Decoded? && !IsBlank(rec.text)
    ensures r.Some? ==> r.value == rec.text
  {
    match rec
    case Decoded(t) =>
      StripEmptyIffBlank(t);
      if t == "" || Strip(t) == "" then None else Some(t)
    case _ => None
  }

  /** Everything outside the instance that one call observes. */
  datatype Backend = Backend(load: LoadOutcome, existing: set<string>, recognition: Recognition)

  /** The state after a call, its return value, and whether the model was
      invoked on the image. */
  datatype CallResult = CallResult(state: OcrState, text: Option<string>, invoked: bool)

  /** `MangaOCR.__call__` exactly as written: the load guard of `LoadModel`
      and the truthiness test on the recorded error. */
  function CallAsWritten(st: OcrState, input: Input, b: Backend): (r: CallResult)
    ensures r.text.Some? ==> !IsBlank(r.text.value) && r.invoked && r.state.loaded
    ensures ErrorTruthy(st) ==> r == CallResult(st, None, false)
    ensures r.invoked <==>
      r.state.loaded && !ErrorTruthy(r.state) && ValidateImage(OpenInput(input, b.existing)).Valid?
    ensures r.invoked ==> r.text == RecognisedText(b.recognition)
    ensures !st.loaded && !ErrorTruthy(st) ==>
      && (r.state.loaded <==> b.load.Loaded?)
      && (!b.load.Loaded? ==> r == CallResult(st.(loadError := Some(FailureMessage(b.load))), None, false))
  {
    var step := if !st.loaded then LoadModel(st, b.load) else LoadStep(st, false);
    var s := step.state;
    if step.raised || ErrorTruthy(s) then CallResult(s, None, false)
    else
      var image := OpenInput(input, b.existing);
      if !ValidateImage(image).Valid? then CallResult(s, None, false)
      else CallResult(s, RecognisedText(b.recognition), true)
  }

  /** `MangaOCR.__call__` with the load guard of `LoadModelOnce`, which the
      rest of the model uses; `CallAsWritten` keeps the code's own guard. */
  function Call(st: OcrState, input: Input, b: Backend): (r: CallResult)
    ensures r.text.Some? ==> !IsBlank(r.text.value) && r.invoked && r.state.loaded
    ensures st.loadError.Some? ==> r == CallResult(st, None, false)
    ensures st.loaded ==> r.state == st
    ensures LoadInv(st) ==> LoadInv(r.state)
    ensures OpenInput(input, b.existing).None? ==> r.text.None? && !r.invoked
    ensures !ValidateImage(OpenInput(input, b.existing)).Valid? ==> r.text.None? && !r.invoked
    ensures r.invoked <==>
      r.state.loaded && r.state.loadError.None? && ValidateImage(OpenInput(input, b.existing)).Valid?
    ensures r.invoked ==> r.text == RecognisedText(b.recognition)
    ensures !st.loaded && st.loadError.None? ==>
      && (r.state.loaded <==> b.load.Loaded?)
      && (!b.load.Loaded? ==> r == CallResult(st.(loadError := Some(FailureMessage(b.load))), None, false))
  {
    var step := if !st.loaded then LoadModelOnce(st, b.load) else LoadStep(st, false);
    var s := step.state;
    if step.raised || s.loadError.Some? then CallResult(s, None, false)
    else
      var image := OpenInput(input, b.existing);
      if !ValidateImage(image).Valid? then CallResult(s, None, false)
      else CallResult(s, RecognisedText(b.recognition), true)
  }

  /** Where the two guards part: after a first load failed with an empty
      message, the next call as written loads the model and answers, while
      the intended guard keeps refusing. */
  lemma EmptyErrorDivergence(img: Image, text: string)
    requires img.width >= MinSide && img.height >= MinSide && !img.mostlyWhite
    requires !IsBlank(text)
    ensures var st := OcrState(DefaultModelName, false, Some(""));
      var b := Backend(Loaded, {}, Decoded(text));
      && CallAsWritten(st, PilInput(Some(img)), b).text == Some(text)
      && Call(st, PilInput(Some(img)), b).text == None
  {
  }

  /** A sequence of calls on one instance, threading its state. */
  function RunCalls(st: OcrState, calls: seq<(Input, Backend)>): (r: (OcrState, seq<Option<string>>))
    ensures |r.1| == |calls|
    decreases |calls|
  {
    if |calls| == 0 then (st, [])
    else
      var first := Call(st, calls[0].0, calls[0].1);
      var rest := RunCalls(first.state, calls[1..]);
      (rest.0, [first.text] + rest.1)
  }

  /** After a failed load, no later call loads again or returns text. */
  lemma {:induction false} FailedLoadIsFinal(st: OcrState, calls: seq<(Input, Backend)>)
    requires st.loadError.Some?
    ensures RunCalls(st, calls).0 == st
    ensures forall i :: 0 <= i < |calls| ==> RunCalls(st, calls).1[i].None?
    decreases |calls|
  {
    if |calls| > 0 {
      FailedLoadIsFinal(st, calls[1..]);
    }
  }

  /** Over any sequence of calls the loaded flag and the recorded error are
      never both set, and every text returned is non-blank. */
  lemma {:induction false} RunCallsKeepsInvariant(st: OcrState, calls: seq<(Input, Backend)>)
    requires LoadInv(st)
    ensures LoadInv(RunCalls(st, calls).0)
    ensures forall i :: 0 <= i < |calls| && RunCalls(st, calls).1[i].Some? ==>
      !IsBlank(RunCalls(st, calls).1[i].value)
    decreases |calls|
  {
    if |calls| > 0 {
      var first := Call(st, calls[0].0, calls[0].1);
      RunCallsKeepsInvariant(first.state, calls[1..]);
      var r := RunCalls(st, calls);
      forall i | 0 <= i < |calls| && r.1[i].Some? ensures !IsBlank(r.1[i].value) {
        if i > 0 {
          assert r.1[i] == RunCalls(first.state, calls[1..]).1[i - 1];
        }
      }
    }
  }

  // ---------------------------------------------------------------------
  // Singleton

  /** `get_ocr_instance`: the registry is filled on the first call, and every
      call returns the registered instance. */
  function GetOcrInstance(registry: Option<OcrState>, modelName: string): (r: (Option<OcrState>, OcrState))
    ensures r.0 == Some(r.1)
    ensures registry.Some? ==> r.1 == registry.value
    ensures registry.None? ==> r.1 == Init(modelName)
  {
    match registry
    case Some(inst) => (registry, inst)
    case None => var inst := Init(modelName); (Some(inst), inst)
  }

  /** The first call's model name wins: a second request, whatever name it
      passes, gets the instance created by the first. */
  lemma {:induction false} FirstModelNameWins(first: string, second: string)
    ensures GetOcrInstance(GetOcrInstance(None, first).0, second).1 == GetOcrInstance(None, first).1
    ensures GetOcrInstance(GetOcrInstance(None, first).0, second).1.modelName == first
  {
  }
}

=== FILE: paths.dfy ===
/** POSIX path strings as the services manipulate them: the `os.path`
    functions (`basename`, `dirname`, `join`, `splitext`) and the parts of
    `pathlib.PurePosixPath` that are used (`name`, `suffix`, `with_suffix`,
    `str()`), following CPython 3.12. */
module Paths {
  import opened Common

  /** `s.rfind(c)`: the last position of `c`, or -1. */
  function LastIndexOf(s: string, c: char): (r: int)
    ensures -1 <= r < |s|
    ensures r >= 0 ==> s[r] == c
    ensures forall k :: r < k < |s| ==> s[k] != c
  {
    if |s| == 0 then -1
    else if s[|s| - 1] == c then |s| - 1
    else LastIndexOf(s[..|s| - 1], c)
  }

  /** The last occurrence of `c` is the one right before a `c`-free tail. */
  lemma LastIndexBeforeTail(a: string, c: char, b: string)
    requires c !in b
    ensures LastIndexOf(a + [c] + b, c) == |a|
  {
    var s := a + [c] + b;
    var r := LastIndexOf(s, c);
    assert s[|a|] == c;
  }

  // ---------------------------------------------------------------------
  // os.path (posixpath)

  /** Nothing after the last occurrence of `c` is a `c`. */
  lemma AfterLastIndex(s: string, c: char)
    ensures c !in s[LastIndexOf(s, c) + 1..]
  {
    var i := LastIndexOf(s, c);
    var t := s[i + 1..];
    forall k | 0 <= k < |t| ensures t[k] != c {
      assert t[k] == s[i + 1 + k];
    }
  }

  /** `os.path.basename`: everything after the last slash. */
  function Basename(p: string): (r: string)
    ensures '/' !in r
    ensures |r| <= |p| && r == p[|p| - |r|..]
  {
    AfterLastIndex(p, '/');
    p[LastIndexOf(p, '/') + 1..]
  }

  predicate AllChar(s: string, c: char) {
    forall i :: 0 <= i < |s| ==> s[i] == c
  }

  /** `s.rstrip(c)` for a single character. */
  function RStrip(s: string, c: char): (r: string)
    ensures |r| <= |s| && r == s[..|r|]
    ensures forall i :: |r| <= i < |s| ==> s[i] == c
    ensures |r| > 0 ==> r[|r| - 1] != c
  {
    if |s| == 0 then s
    else if s[|s| - 1] == c then RStrip(s[..|s| - 1], c)
    else s
  }

  /** `os.path.dirname`: the text up to the last slash, with trailing slashes
      removed unless it consists of slashes only. */
  function Dirname(p: string): (r: string)
    ensures |r| <= |p| && r == p[..|r|]
    ensures Basename(p) != "" ==> |r| < |p|
  {
    var head := p[..LastIndexOf(p, '/') + 1];
    if head != "" && !AllChar(head, '/') then RStrip(head, '/') else head
  }

  /** Appending `/y` to a directory that does not end in a slash: `dirname`
      and `basename` split it back into the two. */
  lemma DirnameOfChild(x: string, y: string)
    requires x != "" && x[|x| - 1] != '/'
    requires y != "" && '/' !in y
    ensures Dirname(x + "/" + y) == x && Basename(x + "/" + y) == y
  {
    var p := x + "/" + y;
    assert p == x + ['/'] + y;
    LastIndexBeforeTail(x, '/', y);
    var head := p[..|x| + 1];
    assert head == x + "/";
    assert head[|x| - 1] != '/';
    assert RStrip(head, '/') == RStrip(x, '/');
    assert p[|x| + 1..] == y;
  }

  /** A path has an empty directory part exactly when it holds no slash, which
      is when the inpainting script skips creating an output directory. */
  lemma DirnameEmptyIffNoSlash(p: string)
    ensures Dirname(p) == "" <==> '/' !in p
  {
    var i := LastIndexOf(p, '/');
    var head := p[..i + 1];
    if '/' in p {
      var k :| 0 <= k < |p| && p[k] == '/';
      assert i >= k;
      if head != "" && !AllChar(head, '/') {
        var j :| 0 <= j < |head| && head[j] != '/';
        var r := RStrip(head, '/');
        assert |r| > j;
      }
    }
  }

  /** `os.path.join(a, b)`. */
  function Join(a: string, b: string): string {
    if |b| > 0 && b[0] == '/' then b
    else if a == "" || a[|a| - 1] == '/' then a + b
    else a + "/" + b
  }

  /** Joining a slash-free file name onto a directory and taking the base name
      gives the file name back. */
  lemma BasenameOfJoin(dir: string, name: string)
    requires '/' !in name
    ensures Basename(Join(dir, name)) == name
  {
    var p := Join(dir, name);
    if dir == "" {
      assert p == name;
    } else if dir[|dir| - 1] == '/' {
      assert p == dir[..|dir| - 1] + ['/'] + name;
      LastIndexBeforeTail(dir[..|dir| - 1], '/', name);
    } else {
      assert p == dir + ['/'] + name;
      LastIndexBeforeTail(dir, '/', name);
    }
  }

  /** Joining a valid component onto any directory adds exactly that
      component to the parsed path. */
  lemma PartsOfJoin(dir: string, name: string)
    requires ValidPart(name)
    ensures Parts(Join(dir, name)) == Parts(dir) + [name]
  {
    if dir == "" {
      PartsOfEmpty(dir);
      PartsOfComponent(name);
    } else if dir[|dir| - 1] == '/' {
      var a := dir[..|dir| - 1];
      assert Join(dir, name) == a + "/" + name;
      PartsOfChild(a, name);
      assert LastIndexOf(dir, '/') == |dir| - 1;
      assert dir[|dir|..] == "";
    } else {
      PartsOfChild(dir, name);
    }
  }

  /** In the last component of `p`, every dot is preceded only by dots: no
      dot can start an extension. */
  predicate NoExtension(p: string) {
    forall j, k :: LastIndexOf(p, '/') < j < k < |p| && p[k] == '.' ==> p[j] == '.'
  }

  /** `os.path.splitext`: the extension starts at the last dot of the last
      component, provided some non-dot character precedes that dot within the
      component (so leading dots never start an extension). Together the
      clauses fix the split: the extension, when there is one, is the text
      from the last dot of the last component. */
  function SplitExt(p: string): (r: (string, string))
    ensures r.0 + r.1 == p
    ensures r.1 == "" || (r.1[0] == '.' && '/' !in r.1 && '.' !in r.1[1..])
    ensures r.1 == "" <==> NoExtension(p)
  {
    var sep := LastIndexOf(p, '/');
    var dot := LastIndexOf(p, '.');
    if dot > sep && exists k :: sep < k < dot && p[k] != '.' then
      assert !NoExtension(p) by {
        var k :| sep < k < dot && p[k] != '.';
        assert !(p[k] == '.');
      }
      ExtensionTail(p);
      assert p[..dot] + p[dot..] == p;
      (p[..dot], p[dot..])
    else
      assert NoExtension(p) by {
        forall j, k | sep < j < k < |p| && p[k] == '.' ensures p[j] == '.' {
          assert k <= dot;
        }
      }
      (p, "")
  }

  /** For a file name, an extension of two or more characters from
      `os.path.splitext` is exactly the `pathlib` suffix. (They differ on a
      trailing dot, which only `splitext` reports, and on a name made of
      leading dots and a tail, which only `pathlib` does.) */
  lemma SplitExtAgreesWithSuffix(n: string)
    requires '/' !in n
    requires |SplitExt(n).1| >= 2
    ensures SuffixOfName(n) == SplitExt(n).1
  {
    var e := SplitExt(n).1;
    assert LastIndexOf(n, '/') == -1;
    var dot := LastIndexOf(n, '.');
    assert e == n[dot..];
  }

  /** From the last dot after the last slash on, a path holds no slash and no
      further dot. */
  lemma ExtensionTail(p: string)
    requires LastIndexOf(p, '.') > LastIndexOf(p, '/')
    ensures var e := p[LastIndexOf(p, '.')..]; e[0] == '.' && '/' !in e && '.' !in e[1..]
  {
    var sep := LastIndexOf(p, '/');
    var dot := LastIndexOf(p, '.');
    AfterLastIndex(p, '.');
    assert p[dot..][1..] == p[dot + 1..];
    AfterLastIndex(p, '/');
    assert p[dot..] == p[sep + 1..][dot - sep - 1..];
  }

  // ---------------------------------------------------------------------
  // pathlib.PurePosixPath

  /** A component that survives path parsing: non-empty, not `.`, slash-free. */
  predicate ValidPart(s: string) {
    s != "" && s != "." && '/' !in s
  }

  /** The components of a path: the text between slashes, with empty and `.`
      components dropped. */
  function Parts(p: string): (r: seq<string>)
    ensures forall k :: 0 <= k < |r| ==> ValidPart(r[k])
    decreases |p|
  {
    var i := LastIndexOf(p, '/');
    var seg := p[i + 1..];
    var rest := if i < 0 then [] else Parts(p[..i]);
    if seg == "" || seg == "." then rest else rest + [seg]
  }

  /** The anchor of a path: `//` exactly when it starts with two slashes but
      not three, `/` for any other absolute path, and empty otherwise. */
  function Root(p: string): string {
    if |p| == 0 || p[0] != '/' then ""
    else if |p| >= 2 && p[1] == '/' && !(|p| >= 3 && p[2] == '/') then "//"
    else "/"
  }

  predicate IsRoot(root: string) {
    root == "" || root == "/" || root == "//"
  }

  function JoinSlash(ps: seq<string>): string
    decreases |ps|
  {
    if |ps| == 0 then ""
    else if |ps| == 1 then ps[0]
    else JoinSlash(ps[..|ps| - 1]) + "/" + ps[|ps| - 1]
  }

  /** `str()` of a parsed path: the root followed by the slash-joined parts,
      or `.` when both are empty. */
  function Render(root: string, ps: seq<string>): string {
    if root == "" && |ps| == 0 then "." else root + JoinSlash(ps)
  }

  lemma PartsOfEmpty(s: string)
    requires |s| == 0
    ensures Parts(s) == []
  {
    assert LastIndexOf(s, '/') == -1;
  }

  lemma PartsOfDot(s: string)
    requires |s| == 1 && s[0] == '.'
    ensures Parts(s) == []
  {
    assert LastIndexOf(s[..0], '/') == -1;
    assert LastIndexOf(s, '/') == -1;
    assert s[0..] == s;
  }

  lemma PartsOfSlash(s: string)
    requires |s| == 1 && s[0] == '/'
    ensures Parts(s) == []
  {
    var e := s[..0];
    assert LastIndexOf(s, '/') == 0;
    assert s[0 + 1..] == [];
    PartsOfEmpty(e);
    assert Parts(s) == Parts(e);
  }

  lemma PartsOfDoubleSlash(s: string)
    requires |s| == 2 && s[0] == '/' && s[1] == '/'
    ensures Parts(s) == []
  {
    assert LastIndexOf(s, '/') == 1;
    assert s[2..] == [];
    PartsOfSlash(s[..1]);
  }

  /** A bare root (or the empty path) has no components. */
  lemma PartsOfBareRoot(root: string)
    requires IsRoot(root)
    ensures Parts(Render(root, [])) == []
  {
    var r := Render(root, []);
    if root == "" {
      PartsOfDot(r);
    } else if root == "/" {
      PartsOfSlash(r);
    } else {
      PartsOfDoubleSlash(r);
    }
  }

  /** Appending `/x` for a valid component `x` appends exactly `x`. */
  lemma PartsOfChild(a: string, x: string)
    requires ValidPart(x)
    ensures Parts(a + "/" + x) == Parts(a) + [x]
  {
    var p := a + "/" + x;
    assert p == a + ['/'] + x;
    LastIndexBeforeTail(a, '/', x);
    assert p[|a| + 1..] == x;
    assert p[..|a|] == a;
  }

  /** A single valid component with no root parses to itself. */
  lemma PartsOfComponent(x: string)
    requires ValidPart(x)
    ensures Parts(x) == [x]
  {
    var i := LastIndexOf(x, '/');
    assert i == -1;
    assert x[0..] == x;
    assert Parts(x) == [] + [x];
  }

  /** A root followed by one valid component parses to that component. */
  lemma PartsOfRootedComponent(root: string, x: string)
    requires IsRoot(root) && ValidPart(x)
    ensures Parts(Render(root, [x])) == [x]
  {
    if root == "" {
      assert Render(root, [x]) == x;
      PartsOfComponent(x);
    } else {
      var r := root[..|root| - 1];
      assert Render(root, [x]) == r + "/" + x;
      PartsOfChild(r, x);
      if |r| == 0 {
        PartsOfEmpty(r);
      } else {
        PartsOfSlash(r);
      }
    }
  }

  lemma RenderAppend(root: string, init: seq<string>, x: string)
    requires |init| > 0
    ensures Render(root, init + [x]) == Render(root, init) + "/" + x
  {
    assert (init + [x])[..|init|] == init;
  }

  /** Rendering and re-parsing gives the same components back. */
  lemma {:induction false} PartsOfRender(root: string, ps: seq<string>)
    requires IsRoot(root)
    requires forall k :: 0 <= k < |ps| ==> ValidPart(ps[k])
    ensures Parts(Render(root, ps)) == ps
    decreases |ps|
  {
    if |ps| == 0 {
      PartsOfBareRoot(root);
    } else if |ps| == 1 {
      PartsOfRootedComponent(root, ps[0]);
      assert ps == [ps[0]];
    } else {
      var init := ps[..|ps| - 1];
      var x := ps[|ps| - 1];
      assert ps == init + [x];
      RenderAppend(root, init, x);
      PartsOfChild(Render(root, init), x);
      PartsOfRender(root, init);
    }
  }

  /** `PurePath.name`: the last component, or empty when there is none. */
  function Name(p: string): (r: string)
    ensures r == "" || ValidPart(r)
  {
    var ps := Parts(p);
    if |ps| == 0 then "" else ps[|ps| - 1]
  }

  /** The name of a path built by appending a valid component is that
      component. */
  lemma NameOfChild(dir: string, name: string)
    requires ValidPart(name)
    ensures Name(dir + "/" + name) == name
  {
    assert dir + "/" + name == dir + ['/'] + name;
    LastIndexBeforeTail(dir, '/', name);
    assert (dir + ['/'] + name)[|dir| + 1..] == name;
  }

  /** The suffix of a single component: from its last dot, when that dot is
      neither its first nor its last character. */
  function SuffixOfName(name: string): (r: string)
    ensures r == "" || (|r| >= 2 && r[0] == '.' && '.' !in r[1..] && |r| < |name| && r == name[|name| - |r|..])
  {
    var i := LastIndexOf(name, '.');
    if 0 < i < |name| - 1 then
      AfterLastIndex(name, '.');
      assert name[i..][1..] == name[i + 1..];
      name[i..]
    else ""
  }

  /** `PurePath.suffix`. */
  function Suffix(p: string): string {
    SuffixOfName(Name(p))
  }

  /** A suffix `with_suffix` accepts and `suffix` reports back unchanged: a dot
      followed by at least one character, with no further dot and no slash. */
  predicate ProperSuffix(s: string) {
    |s| >= 2 && s[0] == '.' && '.' !in s[1..] && '/' !in s
  }

  /** Every non-empty suffix a path reports is a proper one. */
  lemma SuffixIsProper(p: string)
    requires Suffix(p) != ""
    ensures ProperSuffix(Suffix(p))
  {
    var n := Name(p);
    var s := Suffix(p);
    assert s == n[|n| - |s|..];
  }

  /** Lower-casing keeps a suffix proper: it moves neither dots nor slashes. */
  lemma LowerKeepsProperSuffix(s: string)
    requires ProperSuffix(s)
    ensures ProperSuffix(Lower(s))
  {
    var l := Lower(s);
  }

  /** A child named `stem + s` of any directory has the suffix `s`. */
  lemma SuffixOfChild(dir: string, stem: string, s: string)
    requires stem != "" && ProperSuffix(s) && ValidPart(stem + s)
    ensures Suffix(dir + "/" + (stem + s)) == s
  {
    NameOfChild(dir, stem + s);
    SuffixOfNameWith(stem, s);
  }

  /** The suffix of `stem + s` is `s` whenever the stem is non-empty. */
  lemma SuffixOfNameWith(stem: string, s: string)
    requires stem != "" && ProperSuffix(s)
    ensures SuffixOfName(stem + s) == s
  {
    var n := stem + s;
    assert n == stem + ['.'] + s[1..];
    LastIndexBeforeTail(stem, '.', s[1..]);
    assert n[|stem|..] == s;
  }

  /** `PurePath.with_suffix`: `None` where CPython raises `ValueError` (a
      suffix containing a slash, not starting with a dot, or equal to `.`, and
      a path without a name). */
  function WithSuffix(p: string, suffix: string): (r: Option<string>)
    ensures r.None? <==>
      ('/' in suffix || (suffix != "" && suffix[0] != '.') || suffix == "." || Name(p) == "")
  {
    if '/' in suffix || (suffix != "" && suffix[0] != '.') || suffix == "." then None
    else
      var ps := Parts(p);
      if |ps| == 0 then None
      else Some(Render(Root(p), Renamed(ps, suffix)))
  }

  /** A name with its suffix (if any) replaced. */
  function ReplaceSuffix(name: string, suffix: string): string {
    name[..|name| - |SuffixOfName(name)|] + suffix
  }

  /** The components with the last one's suffix replaced. */
  function Renamed(ps: seq<string>, suffix: string): (r: seq<string>)
    requires |ps| > 0
    ensures |r| == |ps| && r[..|ps| - 1] == ps[..|ps| - 1]
    ensures r[|ps| - 1] == ReplaceSuffix(ps[|ps| - 1], suffix)
  {
    ps[..|ps| - 1] + [ReplaceSuffix(ps[|ps| - 1], suffix)]
  }

  lemma RootIsRoot(p: string)
    ensures IsRoot(Root(p))
  {
  }

  /** Replacing a valid name's suffix by a proper one gives a valid name that
      has exactly that suffix. */
  lemma ReplaceSuffixProper(name: string, s: string)
    requires ValidPart(name) && ProperSuffix(s)
    ensures ValidPart(ReplaceSuffix(name, s))
    ensures SuffixOfName(ReplaceSuffix(name, s)) == s
  {
    var stem := name[..|name| - |SuffixOfName(name)|];
    assert stem != "";
    assert (stem + s)[..|stem|] == stem;
    SuffixOfNameWith(stem, s);
  }

  lemma RenamedValid(ps: seq<string>, s: string)
    requires |ps| > 0 && ProperSuffix(s)
    requires forall k :: 0 <= k < |ps| ==> ValidPart(ps[k])
    ensures forall k :: 0 <= k < |ps| ==> ValidPart(Renamed(ps, s)[k])
  {
    var r := Renamed(ps, s);
    ReplaceSuffixProper(ps[|ps| - 1], s);
    forall k | 0 <= k < |ps| ensures ValidPart(r[k]) {
      if k < |ps| - 1 {
        assert r[k] == r[..|ps| - 1][k];
      }
    }
  }

  /** The components `with_suffix` renders re-parse to themselves. */
  lemma WithSuffixParts(p: string, s: string)
    requires ProperSuffix(s)
    requires WithSuffix(p, s).Some?
    ensures |Parts(p)| > 0
    ensures Parts(WithSuffix(p, s).value) == Renamed(Parts(p), s)
  {
    var ps := Parts(p);
    RenamedValid(ps, s);
    RootIsRoot(p);
    PartsOfRender(Root(p), Renamed(ps, s));
  }

  /** After `with_suffix(s)` with a proper `s`, the path reports `s` as its
      suffix and keeps its parent components. */
  lemma WithSuffixSetsSuffix(p: string, s: string)
    requires ProperSuffix(s)
    requires WithSuffix(p, s).Some?
    ensures Suffix(WithSuffix(p, s).value) == s
    ensures |Parts(WithSuffix(p, s).value)| == |Parts(p)|
    ensures Parts(WithSuffix(p, s).value)[..|Parts(p)| - 1] == Parts(p)[..|Parts(p)| - 1]
  {
    var ps := Parts(p);
    WithSuffixParts(p, s);
    var q := WithSuffix(p, s).value;
    assert Name(q) == ReplaceSuffix(ps[|ps| - 1], s);
    ReplaceSuffixProper(ps[|ps| - 1], s);
  }

  /** On a name without a suffix, `with_suffix` appends: the parent
      components stay and the name gains `s`. */
  lemma WithSuffixOfBareName(p: string, s: string)
    requires ProperSuffix(s)
    requires WithSuffix(p, s).Some?
    requires Suffix(p) == ""
    ensures |Parts(p)| > 0
    ensures Parts(WithSuffix(p, s).value) == Parts(p)[..|Parts(p)| - 1] + [Name(p) + s]
  {
    WithSuffixParts(p, s);
    var ps := Parts(p);
    var n := ps[|ps| - 1];
    assert Name(p) == n;
    assert SuffixOfName(n) == "";
    assert n[..|n|] == n;
    assert ReplaceSuffix(n, s) == n + s;
    assert Renamed(ps, s) == ps[..|ps| - 1] + [n + s];
  }
}
